=== FILE: README.md ===
# Trust ledger back end, modelled in Dafny

This project models the HTTP handlers of a small trust-ledger service. The
service keeps users and their login sessions. It stores "requests": work items
a user tracks, each with a status (`fair`, `stalled`, `critical`,
`completed`) and a list of peers. From a user's requests and network peers it
computes a trust score between 0 and 1000, and it keeps alerts that the user
can list and mark as read.

The model works like this:

- The database is one immutable value, `Store.State`. It has one field per
  table.
- Every handler is a pure function from a state and its inputs to a
  `Store.Handled`: the HTTP status and the `{success, data, error}` envelope
  the handler answers with, plus the state it leaves behind.
- The bearer-token lookup that starts every authenticated handler is
  `Auth.Authenticate`.
- Every error path of the handlers is modelled as its own response, except
  the ones listed below.

Files, in the order they build on each other:

- `prelude.dfy`: `Option`, plus the `Uuid` and `Time` types.
- `seqs.dfy`: `Filter`, `Find` and insertion `Sort`. These stand in for SQL
  `WHERE`, `fetch_optional` and `ORDER BY`.
- `text.dfy`:
  - Rust's `str::trim`, which strips Unicode `White_Space`.
  - `str::len` as a UTF-8 byte count.
  - Prefix stripping.
  - First and last index of a character.
- `email.dfy`: the registration e-mail pattern
  `^[a-zA-Z0-9._%+-]+@[a-zA-Z0-9.-]+\.[a-zA-Z]{2,}$`. A direct validator
  is proved equivalent to the pattern's declarative reading.
- `models.dfy`:
  - The rows and request and response bodies.
  - The column defaults of the schema.
  - The `ApiResponse` envelope.
- `store.dfy`:
  - The state.
  - The handler result.
  - `Valid`: the keys and unique columns of the schema, plus the foreign
    keys the handlers rely on.
- `auth.dfy`:
  - Token generation.
  - `get_user_from_token`.
  - `register`, `login` and `me`.
- `requests.dfy`: `list_requests`, `get_request`, `create_request` and
  `update_request_status`.
- `trust.dfy`: `compute_trust_score`, `get_trust_score`,
  `recalculate_trust_score` and `list_network_peers`.
- `alerts.dfy`: `list_alerts` and `mark_alert_read`.
- `integrity.dfy`: every handler that writes keeps `Valid`.
- `workflows.dfy`: properties of handler sequences, such as:
  - register then log in;
  - create then get;
  - update then get;
  - recalculate then get;
  - marking a request completed never lowers the score.

Inputs the handlers take from the outside world are parameters of the model:

- the UUIDs `Uuid::new_v4` returns;
- the clock `NOW()` reads;
- the 64 draws of `rand::thread_rng` behind a token;
- the hash `bcrypt::hash` returns;
- the `bcrypt::verify` function.

Notes on the source's behaviour:

- The registration length checks measure UTF-8 bytes, as Rust's `str::len`
  does, not characters.
- The score row that registration inserts is 300 with status `Healthy`.
  The thresholds of `compute_trust_score` classify 300 as `Fair`
  (`Trust.InitialRowDisagreesWithThresholds`). The model keeps the stored
  row as the code writes it.

## Model

| member | source | states |
|---|---|---|
| Models.ToUserResponse | backend/src/models.rs:23-32 | the public view of a user carries the id, user name, e-mail and creation time of the row |
| Models.ProjectionHidesHash | backend/src/models.rs:15-32 | two users that differ only in their password hash have the same public view, so the hash never reaches a response |
| Models.ApiOk | backend/src/models.rs:162-168 | a success envelope is well formed, carries the data and no error |
| Models.ApiErr | backend/src/models.rs:170-176 | an error envelope is well formed, carries the message and no data |
| Models.WellFormedIffConstructed | backend/src/models.rs:155-177 | an envelope is well formed exactly when it is one that `ok` or `err` builds |
| Models.Success | backend/src/models.rs:162-168 | a 200 answer has a well-formed success body |
| Models.Failure | backend/src/models.rs:170-176 | a non-200 answer has a well-formed failure body carrying the message |
| Store.Refuse | backend/src/auth.rs:151-154 | an early error return answers with exactly the given status and the given message, and leaves every table as it was |
| Auth.TokenChar | backend/src/auth.rs:12-17 | draws 0-9 become the digits and 10-35 the lower-case letters, and the character maps back to its draw |
| Auth.TokenCharRoundTrip | backend/src/auth.rs:12-17 | every token character comes from exactly one draw below 36 |
| Auth.GenerateToken | backend/src/auth.rs:7-20 | a token has 64 characters from `[0-9a-z]`, and character i encodes draw i |
| Auth.GenerateTokenBijective | backend/src/auth.rs:7-20 | distinct draw sequences give distinct tokens, and every 64-character `[0-9a-z]` string is the token of some draws |
| Auth.Authenticate | backend/src/auth.rs:22-39 | a user is found exactly when the header is visible ASCII, starts with `Bearer `, and the rest is a stored session token; the user is that session's owner |
| Auth.AuthenticateMinted | backend/src/auth.rs:22-39 | presenting a generated token as `Bearer <token>` authenticates as the token's session owner when it is stored, and not at all otherwise |
| Auth.UserByEmail | backend/src/auth.rs:116-121 | the lookup finds a user with that e-mail, and finds none only when no user has it |
| Auth.UserById | backend/src/auth.rs:156-159 | the lookup finds the user with that id, and finds none only when the id is not a user's |
| Auth.Register | backend/src/auth.rs:41-110 | checks run in source order: user name shorter than 3 bytes, e-mail not matching the pattern, and password shorter than 8 bytes give 400; a registered e-mail gives 409; a taken user name, once every earlier check passes, gives 500 with `Registration failed` and no change. Success comes exactly when all checks pass. It appends the user and opens a session under the new token. It adds a 300/`Healthy` score row unless a row with the drawn id already exists, in which case the failed insert is ignored and the score table is unchanged. Nothing else changes |
| Auth.Login | backend/src/auth.rs:112-145 | an unknown e-mail and a wrong password give the same 401 with the same message and no state change; success comes exactly when the user exists and the password verifies, and adds a session for that user and nothing else |
| Auth.Me | backend/src/auth.rs:147-165 | answers 401 without a session, 404 when the session's user is gone, and otherwise that user's public view; no state change |
| Email.ValidatorMatchesPattern | backend/src/auth.rs:49-52 | the validator accepts a string exactly when it splits as local part, `@`, domain part, `.`, and top-level part of two or more letters |
| Email.PatternImpliesValidator | backend/src/auth.rs:49 | every string of the e-mail pattern's shape is accepted by the validator |
| Email.ValidatorImpliesPattern | backend/src/auth.rs:49 | every string the validator accepts has the pattern's shape |
| Email.PartsMatch | backend/src/auth.rs:49 | an `@` followed later by a `.` that cut a string into a valid local, domain and top-level part make the string match the pattern |
| Email.LocalPartEndsAtAt | backend/src/auth.rs:49 | in a string of the pattern's shape, the first `@` is the one after the local part, because the local part has no `@` |
| Email.TopLevelPartFollowsLastDot | backend/src/auth.rs:49 | in the part after `@`, the last `.` is the one before the top-level part, because that part is letters only |
| Text.Trim | backend/src/requests.rs:115-117 | the result is empty exactly when the title is all whitespace; otherwise it neither starts nor ends with whitespace |
| Text.TrimPadded | backend/src/requests.rs:126 | trimming a core that has whitespace only around it gives back exactly that core |
| Text.TrimIdempotent | backend/src/requests.rs:126 | trimming a trimmed title changes nothing |
| Text.Utf8Len | backend/src/auth.rs:45 | the byte length lies between the character count and four times it, and equals the count exactly for ASCII text |
| Text.StripPrefix | backend/src/auth.rs:28 | stripping succeeds exactly when the prefix is present, and then prefix plus remainder is the input |
| Text.IndexOfAt | backend/src/auth.rs:49 | when position i holds the character and no earlier position does, the first-index search returns i |
| Text.LastIndexOfAt | backend/src/auth.rs:49 | when position i holds the character and no later position does, the last-index search returns i |
| Requests.Rank | backend/src/requests.rs:19 | `critical` ranks 0, `stalled` ranks 1, and every other status 2 |
| Requests.ListedBeforeIsTotalPreorder | backend/src/requests.rs:17-20 | the listing order (`critical`, then `stalled`, then the rest, with more stalled days first) is total and transitive |
| Requests.OwnedRequests | backend/src/requests.rs:17-18 | a request is selected exactly when it belongs to the user |
| Requests.PeerNames | backend/src/requests.rs:30-36 | a name is among a request's peers exactly when a peer row for that request carries it, and it appears as often as such rows do |
| Requests.NameColumnMultiset | backend/src/requests.rs:30-36 | rows of one request give each peer name as often as a row of that request carries it |
| Requests.Listing | backend/src/requests.rs:17-49 | the listing is a permutation of the user's requests, sorted in the source's order, and each entry carries its own peers |
| Requests.ListRequests | backend/src/requests.rs:8-55 | answers 401 without a session, and otherwise the user's listing; no state change |
| Requests.FindOwned | backend/src/requests.rs:69-75 | finds a request with that id owned by the user, and finds none only when there is no such request |
| Requests.GetRequest | backend/src/requests.rs:57-103 | answers 401 without a session, 404 when the id is not one of the user's requests, and otherwise that request with its peers; no state change |
| Requests.PeerRows | backend/src/requests.rs:134-146 | the loop stores one row per name whose insert did not fail, in the order of the names and nothing else: the name at position k lands at the number of surviving positions before k, and the row count is the number of surviving positions. Every row belongs to the new request; with no failed insert the rows are the names, in order |
| Requests.KeptIncreasing | backend/src/requests.rs:134-146 | a surviving name's row lands before the row of every later name, so the stored rows keep the order of the names |
| Requests.PeerNamesAfterCreate | backend/src/requests.rs:79-95 | with every insert succeeding, a request no earlier peer row mentions reads back exactly the names it was created with, in order, when peer rows come back in store order |
| Requests.PeerNamesOfFreshRequest | backend/src/requests.rs:79-95 | for an id no earlier peer row mentions, reading the peers back gives exactly the names just inserted, in store order |
| Requests.FreshRequestRows | backend/src/requests.rs:79-85 | for an id no earlier peer row mentions, selecting its rows gives exactly the rows just appended |
| Requests.CreateRequest | backend/src/requests.rs:105-163 | gives 401 without a session and 400 for a blank title. Otherwise it stores a row with the fresh id, the caller as owner, the trimmed title, status `fair`, 0 stalled days and the current time, plus its peer rows, and changes no other table; the answer lists every requested peer, even those whose insert failed |
| Requests.SetStatus | backend/src/requests.rs:183-185 | exactly the rows with that id and owner get the new status and update time; every other row is unchanged |
| Requests.UpdateRequestStatus | backend/src/requests.rs:165-199 | gives 401 without a session, then 400 for a status outside the four, before any lookup. It answers 200 exactly when the user owns a request with that id, updating only those rows; otherwise it gives 404 with no change |
| Trust.InteractionBonus | backend/src/trust.rs:18 | the bonus is 3/2 of the interactions, truncated toward zero, for either sign |
| Trust.Clamp | backend/src/trust.rs:21-24 | the result lies in the bounds, is the input when the input does, and is the nearer bound otherwise |
| Trust.Classify | backend/src/trust.rs:26-33 | `Healthy` exactly at 400 and above, `Fair` exactly in [200, 400), `Critical` exactly below 200 |
| Trust.CountWithStatus | backend/src/trust.rs:80-102 | the count of the user's requests with a status is at most the number of rows, and zero exactly when no row of that user has that status |
| Trust.CountWithStatusAppend | backend/src/trust.rs:80-102 | a new request row raises exactly the count of its own owner and status, by one |
| Trust.StatusCountsWithinRows | backend/src/trust.rs:80-102 | the completed, stalled and critical counts together never exceed the number of request rows |
| Trust.SumInteractions | backend/src/trust.rs:104-110 | `COALESCE(SUM(...), 0)` is zero over no rows and non-negative when every row is |
| Trust.SumInteractionsConcat | backend/src/trust.rs:104-110 | the sum over two sets of rows is the sum of their sums |
| Trust.SumInteractionsPermutation | backend/src/trust.rs:104-110 | the sum does not depend on the order the rows come back in: any two sequences holding the same rows, as multisets, have the same sum |
| Trust.Gather | backend/src/trust.rs:80-117 | the five factors are non-negative counts within the table sizes; the peer count is zero exactly when the user has no network peer, and then the interaction sum is zero |
| Trust.ComputeTrustScore | backend/src/trust.rs:7-46 | the score lies in [0, 1000]. The status is `Healthy` exactly at 400 and above, `Fair` exactly in [200, 400), and `Critical` exactly below 200. The factors echo the inputs. For non-negative interactions the score is the clamped weighted sum; for negative ones the interaction term is rounded toward zero, as Rust's integer division does |
| Trust.ScoreMonotone | backend/src/trust.rs:14-24 | more completed requests, interactions or peers and fewer stalled or critical requests never lower the score |
| Trust.InteractionBonusMonotone | backend/src/trust.rs:18 | the interaction bonus never decreases as interactions grow |
| Trust.ScoreBoundaries | backend/src/trust.rs:14-33 | a user with nothing scores 300 `Fair`, and 34 critical requests alone floor the score at 0 `Critical` |
| Trust.InitialRowDisagreesWithThresholds | backend/src/auth.rs:88 | the score 300 that registration stores would be classified `Fair`, not the `Healthy` stored with it |
| Trust.OwnedPeers | backend/src/trust.rs:112-113 | a network peer is counted exactly when it belongs to the user |
| Trust.ComputeFrom | backend/src/trust.rs:120-126 | the computation reports the gathered factors unchanged |
| Trust.Recalculate | backend/src/trust.rs:71-139 | gives 401 without a session. Otherwise the reported factors are the counts of the user's completed, stalled and critical requests, the sum of their peers' interactions and their peer count. Only the caller's score row, if any, is rewritten, with the computed score and status; every other table and row is kept |
| Trust.GetTrustScore | backend/src/trust.rs:48-69 | answers 401 without a session, 404 when the user has no score row, and otherwise that row; no state change |
| Trust.ListNetworkPeers | backend/src/trust.rs:141-161 | answers 401 without a session, and otherwise a permutation of the user's network peers, whole rows including their coordinates, ordered by interactions, largest first; no state change |
| Alerts.AlertQuery | backend/src/alerts.rs:18-36 | an alert is selected, with its multiplicity, exactly when it is the user's and either no filter, `all`, or its type was asked for |
| Alerts.ListAlerts | backend/src/alerts.rs:8-42 | answers 401 without a session, and otherwise a permutation of the selected alerts, newest first; no state change |
| Alerts.SetRead | backend/src/alerts.rs:56-58 | exactly the user's alerts with that id become read; every other field of every alert is unchanged |
| Alerts.MarkAlertRead | backend/src/alerts.rs:44-71 | gives 401 without a session. It answers 200 exactly when the user has an alert with that id, and then only those alerts change, to read; otherwise it gives 404 with no change |
| Alerts.MarkAlertReadIdempotent | backend/src/alerts.rs:56-58 | marking an alert read a second time gives the same answer and the same state as marking it once |
| Alerts.SetReadTwice | backend/src/alerts.rs:56-58 | running the update a second time changes no row, and matches an alert exactly when the first run did |
| Store.Valid | backend/src/db.rs:5-58 | the primary keys of users, requests, trust scores and alerts; the unique e-mail, user name and score `user_id` columns; and the foreign keys of sessions, requests, peer rows and score rows. It is the state invariant every writing handler preserves |
| Integrity.AddUserKeepsValid | backend/src/db.rs:5-11 | adding a user with a fresh id, e-mail and user name, a session for it and possibly its score row, under a score id no row has, keeps the keys and references intact |
| Integrity.RegisterPreservesValid | backend/src/auth.rs:76-101 | registering keeps every key, unique column and reference that `Valid` states, the score row's primary key included, whatever score id is drawn |
| Integrity.LoginPreservesValid | backend/src/auth.rs:129-135 | logging in keeps every key, unique column and reference that `Valid` states |
| Integrity.AddSessionKeepsValid | backend/src/db.rs:54-58 | a new session for an existing user keeps the keys and references intact |
| Integrity.AddRequestKeepsValid | backend/src/db.rs:12-27 | adding a request with a fresh id for an existing user, and peer rows pointing at it, keeps the keys and references intact |
| Integrity.CreateRequestPreservesValid | backend/src/requests.rs:121-146 | creating a request, whichever peer inserts fail, keeps every key, unique column and reference that `Valid` states |
| Integrity.UpdateRequestStatusPreservesValid | backend/src/requests.rs:183-190 | updating a status keeps the request ids and owners, and so every key and reference |
| Integrity.RewriteRequestsKeepsValid | backend/src/db.rs:12-27 | rewriting request rows in place, keeping each row's id and owner, keeps the keys and references intact |
| Integrity.RecalculatePreservesValid | backend/src/trust.rs:128-136 | rewriting the score row keeps its owner, and so every key and reference |
| Integrity.ReplaceScoreKeepsValid | backend/src/db.rs:28-34 | rewriting score rows, keeping the set of users with a row and each row's id and owner, keeps the keys and references intact |
| Integrity.MarkAlertReadPreservesValid | backend/src/alerts.rs:56-62 | marking alerts read keeps the alert ids unique |
| Workflows.RegisterMintsSession | backend/src/auth.rs:95-106 | after registering, the returned token authenticates as the new user, and every earlier session still resolves as before |
| Workflows.LoginMintsSession | backend/src/auth.rs:129-140 | after logging in, the returned token authenticates as that user, and every earlier session still resolves as before |
| Workflows.RegisterThenLogin | backend/src/auth.rs:76-140 | a user who has just registered can log in with the same e-mail and password and gets their own account back |
| Workflows.RegisterTwiceConflicts | backend/src/auth.rs:58-67 | registering a second time with the same e-mail, and a user name and password that pass the length checks, gives 409 and changes nothing, so the first session still authenticates |
| Workflows.CreateThenGet | backend/src/requests.rs:57-163 | when every peer insert succeeds, reading a freshly created request back gives the same row and the same peers the creation answered with, the peer rows being read back in store order |
| Workflows.CreateThenGetSurvivors | backend/src/requests.rs:57-163 | when some peer inserts fail, reading the request back gives the created row but only the names whose insert succeeded, in store order, though creation answered with every name |
| Workflows.UpdateThenGet | backend/src/requests.rs:57-199 | after a successful status update, reading the request back shows the new status and update time |
| Workflows.RecalculateThenGet | backend/src/trust.rs:48-139 | for a user who already has a score row, reading the score after recalculating gives the score and status just computed, and the stored status agrees with the thresholds |
| Workflows.RecalculateTwiceAgrees | backend/src/trust.rs:71-139 | recalculating again later computes the same score and factors, since only the score row was written |
| Workflows.CreateKeepsScore | backend/src/trust.rs:80-126 | creating a request, which starts out `fair`, leaves the recalculated score unchanged |
| Workflows.CompletingShiftsCounts | backend/src/trust.rs:80-102 | turning one of a user's requests `completed` never lowers their completed count and never raises their stalled or critical count |
| Workflows.CompletingNeverLowersScore | backend/src/trust.rs:7-139 | marking one of the user's requests `completed` never lowers the score a recalculation then computes |

## Left out

- Integer width is not modelled: every count and score is a mathematical integer. The source's `i32` arithmetic in `compute_trust_score` can overflow, and its `f64`-to-`i32` cast saturates. The source also narrows the `i64` counts with `as i32`.
- Database errors are not modelled: the error branches of the queries are left out, and every query succeeds, with three exceptions. The duplicate user name in `register` becomes a 500. The score-row insert in `register` fails when a row with that `user_id` or `id` exists, and the error is swallowed. Peer-row inserts in `create_request` may fail, also swallowed; the positions that fail are the `failed` parameter.
- Auth.Register: the 500 it gives for a taken user name carries `Registration failed` without the driver's error text after it.
- Auth.Register: the score-row insert fails only on a key collision, with the user's id or with the drawn score id, and the store keeps no row then. Why a real insert might fail otherwise (a lost connection, say) is not modelled.
- Auth.Register: the `bcrypt::hash` failure branch is not modelled. The hash is a parameter.
- Auth.Login: `bcrypt::verify` is a parameter, and an error from it counts as a mismatch, as the source's `unwrap_or(false)` does.
- Requests.CreateRequest: a failed peer insert is a set of positions whose rows are missing. Which inserts fail is not modelled, and neither are the ids of the peer rows.
- Requests.Listing: rows that tie in the `ORDER BY` keep their store order. The contract promises only the order and the permutation, as SQL does. The peer rows of each request are likewise taken in store order.
- Trust.ListNetworkPeers and Alerts.ListAlerts: ties in the ordering are resolved the same way, and the contract promises only order and permutation.
- The `created_at` of sessions and the ids of peer rows are not modelled: no handler reads them. Network peers' `position_x`/`position_y` are carried as `real` and returned unchanged by the peer listing; their `f64` rounding is not modelled, since no handler computes with them.
- `VARCHAR` length limits are not modelled, since the handlers do not check them before inserting. Neither are the `ON DELETE CASCADE` rule (nothing deletes requests) or the foreign keys of alerts and network peers: no handler inserts into either table, and marking an alert read changes only its read flag, never its `user_id`.
- An `Authorization` header that is not valid visible ASCII counts as absent, as `to_str` fails on it. Repeated headers are not modelled: only the first value is read.
- Concurrency between requests and the clock are not modelled. Each handler runs alone, on one state, and `NOW()` is a parameter.
- The server setup, routing, table creation and seed data are not part of this model.

=== FILE: alerts.dfy ===
/** Alerts: filtered newest-first listing and the owner-scoped mark-as-read. */
module Alerts {
  import opened Prelude
  import opened Seqs
  import opened Models
  import opened Store
  import opened Auth

  const AllAlerts := "all"
  const AlertNotFound := "Alert not found"

  /** The caller's alerts the filter selects: all of them when the filter is
      absent or "all", otherwise those whose type is exactly the filter. */
  predicate Selected(a: Alert, uid: Uuid, filter: Option<string>) {
    a.userId == uid && (filter.None? || filter.value == AllAlerts || a.alertType == filter.value)
  }

  /** `ORDER BY created_at DESC` */
  predicate Newer(a: Alert, b: Alert) {
    a.createdAt >= b.createdAt
  }

  /** The query `list_alerts` chooses: the filtered one for a filter other
      than "all", the unfiltered one otherwise. */
  function AlertQuery(alerts: seq<Alert>, uid: Uuid, filter: Option<string>): (r: seq<Alert>)
    ensures forall a :: multiset(r)[a] == if Selected(a, uid, filter) then multiset(alerts)[a] else 0
  {
    if filter.Some? && filter.value != AllAlerts then
      FilterMultiset(alerts, (a: Alert) => a.userId == uid && a.alertType == filter.value);
      Filter(alerts, (a: Alert) => a.userId == uid && a.alertType == filter.value)
    else
      FilterMultiset(alerts, (a: Alert) => a.userId == uid);
      Filter(alerts, (a: Alert) => a.userId == uid)
  }

  /** `list_alerts` */
  function ListAlerts(st: State, header: Option<string>, filter: Option<string>): (r: Handled<seq<Alert>>)
    ensures r.state == st && r.response.WellFormed()
    ensures Authenticate(st, header).None? ==> r == Refuse(st, Unauthorized401, NotAuthenticated)
    ensures Authenticate(st, header).Some? ==>
      var uid := Authenticate(st, header).value;
      && r.response.status == Ok200
      && var list := r.response.body.data.value;
      && (forall a :: multiset(list)[a] == if Selected(a, uid, filter) then multiset(st.alerts)[a] else 0)
      && (forall i, j :: 0 <= i < j < |list| ==> list[i].createdAt >= list[j].createdAt)
  {
    match Authenticate(st, header)
    case None => Refuse(st, Unauthorized401, NotAuthenticated)
    case Some(uid) =>
      assert TotalPreorder(Newer);
      Handled(Success(Sort(AlertQuery(st.alerts, uid, filter), Newer)), st)
  }

  predicate Targets(a: Alert, uid: Uuid, id: Uuid) {
    a.id == id && a.userId == uid
  }

  /** `UPDATE alerts SET is_read = TRUE WHERE id = $1 AND user_id = $2` */
  function SetRead(alerts: seq<Alert>, uid: Uuid, id: Uuid): (r: seq<Alert>)
    ensures |r| == |alerts|
    ensures forall i :: 0 <= i < |alerts| ==>
      r[i] == if Targets(alerts[i], uid, id) then alerts[i].(isRead := true) else alerts[i]
  {
    seq(|alerts|, i requires 0 <= i < |alerts| =>
      if Targets(alerts[i], uid, id) then alerts[i].(isRead := true) else alerts[i])
  }

  /** `mark_alert_read`. A matched row counts as affected even when it was
      already read, so the call succeeds again and again. */
  function MarkAlertRead(st: State, header: Option<string>, id: Uuid): (r: Handled<MarkedRead>)
    ensures r.response.WellFormed()
    ensures Authenticate(st, header).None? ==> r == Refuse(st, Unauthorized401, NotAuthenticated)
    ensures Authenticate(st, header).Some? ==>
      var uid := Authenticate(st, header).value;
      && (r.response.status == Ok200 <==> exists a :: a in st.alerts && Targets(a, uid, id))
      && (r.response.status != Ok200 ==> r == Refuse(st, NotFound404, AlertNotFound))
      && (r.response.status == Ok200 ==>
            && r.response.body.data == Some(MarkedRead(true))
            && r.state.(alerts := st.alerts) == st
            && |r.state.alerts| == |st.alerts|
            && forall i :: 0 <= i < |st.alerts| ==>
                 && r.state.alerts[i].isRead == (st.alerts[i].isRead || Targets(st.alerts[i], uid, id))
                 && r.state.alerts[i].(isRead := st.alerts[i].isRead) == st.alerts[i])
  {
    match Authenticate(st, header)
    case None => Refuse(st, Unauthorized401, NotAuthenticated)
    case Some(uid) =>
      var affected := Filter(st.alerts, (a: Alert) => Targets(a, uid, id));
      if |affected| == 0 then Refuse(st, NotFound404, AlertNotFound)
      else
        assert affected[0] in affected;
        Handled(Success(MarkedRead(true)), st.(alerts := SetRead(st.alerts, uid, id)))
  }

  /** Running the update a second time changes no row, and matches the same rows. */
  lemma SetReadTwice(alerts: seq<Alert>, uid: Uuid, id: Uuid)
    ensures SetRead(SetRead(alerts, uid, id), uid, id) == SetRead(alerts, uid, id)
    ensures (exists a :: a in SetRead(alerts, uid, id) && Targets(a, uid, id))
        <==> (exists a :: a in alerts && Targets(a, uid, id))
  {
    var after := SetRead(alerts, uid, id);
    assert forall i :: 0 <= i < |alerts| ==> (Targets(after[i], uid, id) <==> Targets(alerts[i], uid, id));
    if a :| a in alerts && Targets(a, uid, id) {
      var i :| 0 <= i < |alerts| && alerts[i] == a;
      assert after[i] in after;
    }
    if a :| a in after && Targets(a, uid, id) {
      var i :| 0 <= i < |after| && after[i] == a;
      assert alerts[i] in alerts;
    }
  }

  /** Marking an alert read twice answers and stores exactly what marking it once does. */
  lemma MarkAlertReadIdempotent(st: State, header: Option<string>, id: Uuid)
    ensures var once := MarkAlertRead(st, header, id);
            var twice := MarkAlertRead(once.state, header, id);
            twice.response == once.response && twice.state == once.state
  {
    var once := MarkAlertRead(st, header, id);
    assert once.state.sessions == st.sessions;
    if Authenticate(st, header).Some? {
      var uid := Authenticate(st, header).value;
      SetReadTwice(st.alerts, uid, id);
      if once.response.status == Ok200 {
        assert once.state.alerts == SetRead(st.alerts, uid, id);
      }
    }
  }
}

=== FILE: auth.dfy ===
/** Identity and sessions: token minting, bearer resolution, registration,
    login and `me`. */
module Auth {
  import opened Prelude
  import opened Seqs
  import opened Text
  import opened Email
  import opened Models
  import opened Store

  const TokenLength := 64
  const TokenAlphabetSize := 36
  const BearerPrefix := "Bearer "
  const MinUsernameBytes := 3
  const MinPasswordBytes := 8

  const UsernameTooShort := "Username must be at least 3 characters"
  const InvalidEmailFormat := "Invalid email format"
  const PasswordTooShort := "Password must be at least 8 characters"
  const EmailAlreadyRegistered := "Email already registered"
  /** The prefix of the 500 message; the driver's error text that follows it is not modelled. */
  const RegistrationFailed := "Registration failed"
  const InvalidCredentials := "Invalid email or password"
  const UserNotFound := "User not found"

  // ---------------------------------------------------------------- tokens

  /** The outcomes of the 64 calls `rng.gen_range(0..36)` one token consumes. */
  predicate IsTokenEntropy(draws: seq<nat>) {
    |draws| == TokenLength && forall i :: 0 <= i < |draws| ==> draws[i] < TokenAlphabetSize
  }

  /** The token alphabet `[0-9a-z]`. */
  predicate IsTokenChar(c: char) {
    '0' <= c <= '9' || 'a' <= c <= 'z'
  }

  /** Position of a token character in the alphabet. */
  function TokenIndex(c: char): nat
    requires IsTokenChar(c)
  {
    if c <= '9' then c as int - '0' as int else c as int - 'a' as int + 10
  }

  /** One draw turned into a character: digits first, then lower-case letters. */
  function TokenChar(i: nat): (c: char)
    requires i < TokenAlphabetSize
    ensures IsTokenChar(c)
    ensures TokenIndex(c) == i
  {
    if i < 10 then ('0' as int + i) as char else ('a' as int + i - 10) as char
  }

  /** Every token character is the image of exactly its own index. */
  lemma TokenCharRoundTrip(c: char)
    requires IsTokenChar(c)
    ensures TokenIndex(c) < TokenAlphabetSize && TokenChar(TokenIndex(c)) == c
  {
  }

  /** `generate_token`, given the random draws. */
  function GenerateToken(draws: seq<nat>): (t: string)
    requires IsTokenEntropy(draws)
    ensures |t| == TokenLength
    ensures forall i :: 0 <= i < |t| ==> IsTokenChar(t[i]) && TokenIndex(t[i]) == draws[i]
  {
    seq(TokenLength, i requires 0 <= i < TokenLength => TokenChar(draws[i]))
  }

  /** Distinct draws give distinct tokens, and every 64-character string over
      the alphabet is some token: the token carries all 36^64 outcomes. */
  lemma GenerateTokenBijective(a: seq<nat>, b: seq<nat>, t: string)
    requires IsTokenEntropy(a) && IsTokenEntropy(b)
    requires |t| == TokenLength && forall i :: 0 <= i < |t| ==> IsTokenChar(t[i])
    ensures GenerateToken(a) == GenerateToken(b) ==> a == b
    ensures var d := seq(TokenLength, i requires 0 <= i < TokenLength => TokenIndex(t[i]));
            IsTokenEntropy(d) && GenerateToken(d) == t
  {
    if GenerateToken(a) == GenerateToken(b) {
      assert forall i :: 0 <= i < TokenLength ==> a[i] == TokenIndex(GenerateToken(a)[i]) == b[i];
    }
    var d := seq(TokenLength, i requires 0 <= i < TokenLength => TokenIndex(t[i]));
    forall i | 0 <= i < TokenLength ensures TokenChar(d[i]) == t[i] {
      TokenCharRoundTrip(t[i]);
    }
  }

  // ---------------------------------------------------------------- sessions

  /** `HeaderValue::to_str` succeeds only on visible ASCII (and tab). */
  predicate IsVisibleAscii(s: string) {
    forall i :: 0 <= i < |s| ==> s[i] == '\t' || ' ' <= s[i] <= '~'
  }

  /** `get_user_from_token`: the user whose session token follows an exact
      "Bearer " prefix of the `Authorization` header, if any. */
  function Authenticate(st: State, header: Option<string>): (r: Option<Uuid>)
    ensures r.Some? <==>
      && header.Some? && IsVisibleAscii(header.value)
      && |BearerPrefix| <= |header.value| && header.value[..|BearerPrefix|] == BearerPrefix
      && header.value[|BearerPrefix|..] in st.sessions
    ensures r.Some? ==> r.value == st.sessions[header.value[|BearerPrefix|..]]
  {
    match header
    case None => None
    case Some(h) =>
      if !IsVisibleAscii(h) then None
      else
        match StripPrefix(h, BearerPrefix)
        case None => None
        case Some(token) =>
          assert token == h[|BearerPrefix|..];
          if token in st.sessions then Some(st.sessions[token]) else None
  }

  /** The header a client sends for a token it was given. */
  function BearerHeader(token: string): Option<string> {
    Some(BearerPrefix + token)
  }

  /** A minted token, presented as a bearer credential, resolves exactly by lookup. */
  lemma AuthenticateMinted(st: State, draws: seq<nat>)
    requires IsTokenEntropy(draws)
    ensures var t := GenerateToken(draws);
            Authenticate(st, BearerHeader(t)) == if t in st.sessions then Some(st.sessions[t]) else None
  {
    var t := GenerateToken(draws);
    var h := BearerPrefix + t;
    assert h[..|BearerPrefix|] == BearerPrefix && h[|BearerPrefix|..] == t;
    assert IsVisibleAscii(h) by {
      forall i | 0 <= i < |h| ensures h[i] == '\t' || ' ' <= h[i] <= '~' {
        if i >= |BearerPrefix| { assert h[i] == t[i - |BearerPrefix|]; }
      }
    }
  }

  // ---------------------------------------------------------------- users

  /** `SELECT * FROM users WHERE email = $1` */
  function UserByEmail(users: seq<User>, email: string): (r: Option<User>)
    ensures r.Some? ==> r.value in users && r.value.email == email
    ensures r.None? <==> forall u :: u in users ==> u.email != email
  {
    Find(users, (u: User) => u.email == email)
  }

  /** `SELECT * FROM users WHERE id = $1` */
  function UserById(users: seq<User>, id: Uuid): (r: Option<User>)
    ensures r.Some? ==> r.value in users && r.value.id == id
    ensures r.None? <==> id !in UserIds(users)
  {
    Find(users, (u: User) => u.id == id)
  }

  predicate EmailTaken(users: seq<User>, email: string) {
    exists u :: u in users && u.email == email
  }

  predicate UsernameTaken(users: seq<User>, username: string) {
    exists u :: u in users && u.username == username
  }

  /** Every check of `register` passes: the three validations, a free e-mail,
      and a free user name (the column is unique). */
  ghost predicate RegistrationAccepted(st: State, body: RegisterRequest) {
    && Utf8Len(body.username) >= MinUsernameBytes
    && MatchesPattern(body.email)
    && Utf8Len(body.password) >= MinPasswordBytes
    && !EmailTaken(st.users, body.email)
    && !UsernameTaken(st.users, body.username)
  }

  /** `register`. `passwordHash` is what the bcrypt call returned, `userId`
      and `scoreId` the fresh UUIDs, `draws` the randomness of the token. */
  function Register(
    st: State, body: RegisterRequest, passwordHash: string,
    userId: Uuid, scoreId: Uuid, draws: seq<nat>, now: Time): (r: Handled<AuthResponse>)
    requires userId !in UserIds(st.users)
    requires IsTokenEntropy(draws) && GenerateToken(draws) !in st.sessions
    ensures r.response.WellFormed()
    ensures Utf8Len(body.username) < MinUsernameBytes ==>
      r == Refuse(st, BadRequest400, UsernameTooShort)
    ensures Utf8Len(body.username) >= MinUsernameBytes && !MatchesPattern(body.email) ==>
      r == Refuse(st, BadRequest400, InvalidEmailFormat)
    ensures (Utf8Len(body.username) >= MinUsernameBytes && MatchesPattern(body.email)
             && Utf8Len(body.password) < MinPasswordBytes) ==>
      r == Refuse(st, BadRequest400, PasswordTooShort)
    ensures (Utf8Len(body.username) >= MinUsernameBytes && MatchesPattern(body.email)
             && Utf8Len(body.password) >= MinPasswordBytes && EmailTaken(st.users, body.email)) ==>
      r == Refuse(st, Conflict409, EmailAlreadyRegistered)
    ensures (Utf8Len(body.username) >= MinUsernameBytes && MatchesPattern(body.email)
             && Utf8Len(body.password) >= MinPasswordBytes && !EmailTaken(st.users, body.email)
             && UsernameTaken(st.users, body.username)) ==>
      r == Refuse(st, InternalError500, RegistrationFailed)
    ensures r.response.status == Ok200 <==> RegistrationAccepted(st, body)
    ensures !RegistrationAccepted(st, body) ==> r.state == st
    ensures RegistrationAccepted(st, body) ==>
      var user := User(userId, body.username, body.email, passwordHash, now);
      var token := GenerateToken(draws);
      && r.response.body.data == Some(AuthResponse(ToUserResponse(user), token))
      && r.state.users == st.users + [user]
      && r.state.sessions == st.sessions[token := userId]
      && (userId !in st.trustScores && scoreId !in ScoreIds(st.trustScores) ==>
            r.state.trustScores == st.trustScores[userId := TrustScore(scoreId, userId, DefaultScore, DefaultScoreStatus, now)])
      && (userId in st.trustScores || scoreId in ScoreIds(st.trustScores) ==>
            r.state.trustScores == st.trustScores)
      && r.state.(users := st.users, sessions := st.sessions, trustScores := st.trustScores) == st
  {
    ValidatorMatchesPattern(body.email);
    if Utf8Len(body.username) < MinUsernameBytes then
      Refuse(st, BadRequest400, UsernameTooShort)
    else if !IsValidEmail(body.email) then
      Refuse(st, BadRequest400, InvalidEmailFormat)
    else if Utf8Len(body.password) < MinPasswordBytes then
      Refuse(st, BadRequest400, PasswordTooShort)
    else if UserByEmail(st.users, body.email).Some? then
      Refuse(st, Conflict409, EmailAlreadyRegistered)
    else if Find(st.users, (u: User) => u.username == body.username).Some? then
      // the INSERT violates the unique user-name column
      Refuse(st, InternalError500, RegistrationFailed)
    else
      var user := User(userId, body.username, body.email, passwordHash, now);
      var token := GenerateToken(draws);
      // the score INSERT fails, and is ignored, if a row for this user or
      // with this id exists
      var scores :=
        if userId in st.trustScores || scoreId in ScoreIds(st.trustScores) then st.trustScores
        else st.trustScores[userId := TrustScore(scoreId, userId, DefaultScore, DefaultScoreStatus, now)];
      var st' := st.(users := st.users + [user], sessions := st.sessions[token := userId], trustScores := scores);
      Handled(Success(AuthResponse(ToUserResponse(user), token)), st')
  }

  /** `login`. `verify` stands for `bcrypt::verify`, an error counting as a mismatch. */
  function Login(
    st: State, body: LoginRequest, verify: (string, string) -> bool, draws: seq<nat>): (r: Handled<AuthResponse>)
    requires IsTokenEntropy(draws) && GenerateToken(draws) !in st.sessions
    ensures r.response.WellFormed()
    ensures !EmailTaken(st.users, body.email) ==>
      r == Refuse(st, Unauthorized401, InvalidCredentials)
    ensures var found := UserByEmail(st.users, body.email);
            found.Some? && !verify(body.password, found.value.passwordHash) ==>
      r == Refuse(st, Unauthorized401, InvalidCredentials)
    ensures r.response.status == Ok200 <==>
      UserByEmail(st.users, body.email).Some? && verify(body.password, UserByEmail(st.users, body.email).value.passwordHash)
    ensures r.response.status != Ok200 ==> r == Refuse(st, Unauthorized401, InvalidCredentials)
    ensures r.response.status == Ok200 ==>
      var u := UserByEmail(st.users, body.email).value;
      var token := GenerateToken(draws);
      && r.response.body.data == Some(AuthResponse(ToUserResponse(u), token))
      && r.state == st.(sessions := st.sessions[token := u.id])
  {
    match UserByEmail(st.users, body.email)
    case None => Refuse(st, Unauthorized401, InvalidCredentials)
    case Some(u) =>
      if !verify(body.password, u.passwordHash) then
        Refuse(st, Unauthorized401, InvalidCredentials)
      else
        var token := GenerateToken(draws);
        Handled(Success(AuthResponse(ToUserResponse(u), token)), st.(sessions := st.sessions[token := u.id]))
  }

  /** `me` */
  function Me(st: State, header: Option<string>): (r: Handled<UserResponse>)
    ensures r.state == st && r.response.WellFormed()
    ensures Authenticate(st, header).None? ==> r == Refuse(st, Unauthorized401, NotAuthenticated)
    ensures Authenticate(st, header).Some? ==>
      var uid := Authenticate(st, header).value;
      && (r.response.status == Ok200 <==> uid in UserIds(st.users))
      && (r.response.status != Ok200 ==> r == Refuse(st, NotFound404, UserNotFound))
      && (r.response.status == Ok200 ==>
            exists u :: u in st.users && u.id == uid && r.response.body.data == Some(ToUserResponse(u)))
  {
    match Authenticate(st, header)
    case None => Refuse(st, Unauthorized401, NotAuthenticated)
    case Some(uid) =>
      match UserById(st.users, uid)
      case None => Refuse(st, NotFound404, UserNotFound)
      case Some(u) => Handled(Success(ToUserResponse(u)), st)
  }
}

=== FILE: email.dfy ===
/** The e-mail shape accepted at registration: the regular expression
    `^[a-zA-Z0-9._%+-]+@[a-zA-Z0-9.-]+\.[a-zA-Z]{2,}$`, written once as a
    direct validator and once as the decomposition the pattern describes. */
module Email {
  import opened Prelude
  import opened Text

  predicate IsAsciiLetter(c: char) {
    'a' <= c <= 'z' || 'A' <= c <= 'Z'
  }

  predicate IsAsciiDigit(c: char) {
    '0' <= c <= '9'
  }

  /** The class `[a-zA-Z0-9._%+-]`. */
  predicate IsLocalChar(c: char) {
    IsAsciiLetter(c) || IsAsciiDigit(c) || c == '.' || c == '_' || c == '%' || c == '+' || c == '-'
  }

  /** The class `[a-zA-Z0-9.-]`. */
  predicate IsDomainChar(c: char) {
    IsAsciiLetter(c) || IsAsciiDigit(c) || c == '.' || c == '-'
  }

  /** `[a-zA-Z0-9._%+-]+` */
  predicate IsLocalPart(s: string) {
    |s| >= 1 && forall i :: 0 <= i < |s| ==> IsLocalChar(s[i])
  }

  /** `[a-zA-Z0-9.-]+` */
  predicate IsDomainPart(s: string) {
    |s| >= 1 && forall i :: 0 <= i < |s| ==> IsDomainChar(s[i])
  }

  /** `[a-zA-Z]{2,}` */
  predicate IsTopLevelPart(s: string) {
    |s| >= 2 && forall i :: 0 <= i < |s| ==> IsAsciiLetter(s[i])
  }

  /** `s` is `l` "@" `d` "." `t` with each part drawn from its class. */
  ghost predicate SplitsAs(s: string, l: string, d: string, t: string) {
    && s == l + "@" + d + "." + t
    && IsLocalPart(l)
    && IsDomainPart(d)
    && IsTopLevelPart(t)
  }

  /** The anchored pattern matches `s`: some decomposition exists. */
  ghost predicate MatchesPattern(s: string) {
    exists l, d, t :: SplitsAs(s, l, d, t)
  }

  /** The validator: the local part ends at the only '@' (neither class
      admits one), and the top-level part starts after the last '.' of the
      remainder (letters admit none). */
  predicate IsValidEmail(s: string) {
    match IndexOf(s, '@')
    case None => false
    case Some(a) =>
      var rest := s[a + 1..];
      match LastIndexOf(rest, '.')
      case None => false
      case Some(k) => IsLocalPart(s[..a]) && IsDomainPart(rest[..k]) && IsTopLevelPart(rest[k + 1..])
  }

  /** The validator accepts exactly the strings the pattern matches. */
  lemma ValidatorMatchesPattern(s: string)
    ensures IsValidEmail(s) <==> MatchesPattern(s)
  {
    if IsValidEmail(s) {
      ValidatorImpliesPattern(s);
    }
    if MatchesPattern(s) {
      var l, d, t :| SplitsAs(s, l, d, t);
      PatternImpliesValidator(s, l, d, t);
    }
  }

  /** The parts the validator cuts out are a decomposition the pattern accepts. */
  lemma ValidatorImpliesPattern(s: string)
    requires IsValidEmail(s)
    ensures MatchesPattern(s)
  {
    var a := IndexOf(s, '@').value;
    var k := LastIndexOf(s[a + 1..], '.').value;
    PartsMatch(s, a, k);
  }

  /** An '@' at `a` and a '.' at `k` after it that cut `s` into a local,
      a domain and a top-level part make `s` match the pattern. */
  lemma PartsMatch(s: string, a: nat, k: nat)
    requires a < |s| && s[a] == '@'
    requires k < |s[a + 1..]| && s[a + 1..][k] == '.'
    requires IsLocalPart(s[..a])
    requires IsDomainPart(s[a + 1..][..k]) && IsTopLevelPart(s[a + 1..][k + 1..])
    ensures MatchesPattern(s)
  {
    var rest := s[a + 1..];
    var l, d, t := s[..a], rest[..k], rest[k + 1..];
    CutAround(rest, k);
    assert [rest[k]] == ".";
    CutAround(s, a);
    assert [s[a]] == "@";
    Reassemble(l, d, t, rest);
    assert SplitsAs(s, l, d, t);
  }

  /** A string is what lies before position `i`, the character there, and what follows. */
  lemma CutAround(s: string, i: nat)
    requires i < |s|
    ensures s == s[..i] + [s[i]] + s[i + 1..]
  {
    assert s == s[..i] + s[i..];
    assert s[i..] == [s[i]] + s[i + 1..];
  }

  /** Regrouping the concatenation of the three parts. */
  lemma Reassemble(l: string, d: string, t: string, rest: string)
    requires rest == d + "." + t
    ensures l + "@" + rest == l + "@" + d + "." + t
  {
  }

  lemma PatternImpliesValidator(s: string, l: string, d: string, t: string)
    requires SplitsAs(s, l, d, t)
    ensures IsValidEmail(s)
  {
    var rest := d + "." + t;
    assert s == l + ("@" + rest);
    LocalPartEndsAtAt(s, l, rest);
    TopLevelPartFollowsLastDot(rest, d, t);
  }

  /** No local-part character is an '@', so the first '@' closes the local part. */
  lemma LocalPartEndsAtAt(s: string, l: string, rest: string)
    requires s == l + ("@" + rest)
    requires IsLocalPart(l)
    ensures IndexOf(s, '@') == Some(|l|)
    ensures s[..|l|] == l && s[|l| + 1..] == rest
  {
    var a := |l|;
    assert s[..a] == l && s[a] == '@' && s[a + 1..] == rest;
    assert forall j :: 0 <= j < a ==> s[j] == l[j] && IsLocalChar(l[j]);
    IndexOfAt(s, '@', a);
  }

  /** No letter is a '.', so the last '.' opens the top-level part. */
  lemma TopLevelPartFollowsLastDot(rest: string, d: string, t: string)
    requires rest == d + "." + t
    requires IsTopLevelPart(t)
    ensures LastIndexOf(rest, '.') == Some(|d|)
    ensures rest[..|d|] == d && rest[|d| + 1..] == t
  {
    var k := |d|;
    assert rest[..k] == d && rest[k] == '.' && rest[k + 1..] == t;
    assert forall j :: k < j < |rest| ==> rest[j] == t[j - k - 1] && IsAsciiLetter(t[j - k - 1]);
    LastIndexOfAt(rest, '.', k);
  }
}

=== FILE: integrity.dfy ===
/** Every handler that writes keeps the schema's keys and references intact. */
module Integrity {
  import opened Prelude
  import opened Text
  import opened Models
  import opened Store
  import opened Auth
  import opened Requests
  import opened Trust
  import opened Alerts

  lemma UserIdsAppend(users: seq<User>, u: User)
    ensures UserIds(users + [u]) == UserIds(users) + {u.id}
  {
    assert forall x :: x in users + [u] <==> x in users || x == u;
  }

  lemma RequestIdsAppend(rs: seq<Request>, x: Request)
    ensures RequestIds(rs + [x]) == RequestIds(rs) + {x.id}
  {
    assert forall y :: y in rs + [x] <==> y in rs || y == x;
  }

  /** Adding a user with a new id, e-mail and user name, a session for it and
      possibly its score row keeps the store valid. */
  lemma AddUserKeepsValid(st: State, user: User, token: string, scores: map<Uuid, TrustScore>)
    requires Valid(st)
    requires user.id !in UserIds(st.users)
    requires !EmailTaken(st.users, user.email) && !UsernameTaken(st.users, user.username)
    requires forall u :: u in scores ==> (u in st.trustScores && scores[u] == st.trustScores[u]) || (u == user.id && scores[u].userId == u)
    requires user.id in scores ==> scores[user.id].id !in ScoreIds(st.trustScores)
    ensures Valid(st.(users := st.users + [user], sessions := st.sessions[token := user.id], trustScores := scores))
  {
    var us := st.users + [user];
    var st' := st.(users := us, sessions := st.sessions[token := user.id], trustScores := scores);
    UserIdsAppend(st.users, user);
    forall i, j | 0 <= i < j < |us|
      ensures us[i].id != us[j].id && us[i].email != us[j].email && us[i].username != us[j].username
    {
      assert us[i] == st.users[i] && st.users[i] in st.users;
      if j < |st.users| {
        assert us[j] == st.users[j];
      }
    }
    forall t | t in st'.sessions ensures st'.sessions[t] in UserIds(us) {
    }
    forall u | u in scores ensures scores[u].userId == u && u in UserIds(us) {
    }
    assert user.id !in st.trustScores;
    forall u, v | u in scores && v in scores && u != v ensures scores[u].id != scores[v].id {
      if u == user.id {
        assert st.trustScores[v].id in ScoreIds(st.trustScores);
      } else if v == user.id {
        assert st.trustScores[u].id in ScoreIds(st.trustScores);
      }
    }
  }

  lemma RegisterPreservesValid(
    st: State, body: RegisterRequest, passwordHash: string,
    userId: Uuid, scoreId: Uuid, draws: seq<nat>, now: Time)
    requires Valid(st)
    requires userId !in UserIds(st.users)
    requires IsTokenEntropy(draws) && GenerateToken(draws) !in st.sessions
    ensures Valid(Register(st, body, passwordHash, userId, scoreId, draws, now).state)
  {
    var r := Register(st, body, passwordHash, userId, scoreId, draws, now);
    if RegistrationAccepted(st, body) {
      var user := User(userId, body.username, body.email, passwordHash, now);
      assert userId !in st.trustScores;
      var scores := if scoreId in ScoreIds(st.trustScores) then st.trustScores
        else st.trustScores[userId := TrustScore(scoreId, userId, DefaultScore, DefaultScoreStatus, now)];
      AddUserKeepsValid(st, user, GenerateToken(draws), scores);
      assert r.state == st.(users := st.users + [user], sessions := st.sessions[GenerateToken(draws) := userId], trustScores := scores);
    }
  }

  /** A new session for an existing user keeps the store valid. */
  lemma AddSessionKeepsValid(st: State, token: string, uid: Uuid)
    requires Valid(st) && uid in UserIds(st.users)
    ensures Valid(st.(sessions := st.sessions[token := uid]))
  {
  }

  lemma LoginPreservesValid(st: State, body: LoginRequest, verify: (string, string) -> bool, draws: seq<nat>)
    requires Valid(st)
    requires IsTokenEntropy(draws) && GenerateToken(draws) !in st.sessions
    ensures Valid(Login(st, body, verify, draws).state)
  {
    var r := Login(st, body, verify, draws);
    if r.response.status == Ok200 {
      var u := UserByEmail(st.users, body.email).value;
      AddSessionKeepsValid(st, GenerateToken(draws), u.id);
    }
  }

  /** Adding a request with a new id for an existing user, with peer rows
      for that request, keeps the store valid. */
  lemma AddRequestKeepsValid(st: State, row: Request, added: seq<RequestPeer>)
    requires Valid(st)
    requires row.id !in RequestIds(st.requests) && row.userId in UserIds(st.users)
    requires forall i :: 0 <= i < |added| ==> added[i].requestId == row.id
    ensures Valid(st.(requests := st.requests + [row], requestPeers := st.requestPeers + added))
  {
    var rs := st.requests + [row];
    var ps := st.requestPeers + added;
    RequestIdsAppend(st.requests, row);
    forall i, j | 0 <= i < j < |rs| ensures rs[i].id != rs[j].id {
      assert rs[i] == st.requests[i] && st.requests[i] in st.requests;
      if j < |st.requests| {
        assert rs[j] == st.requests[j];
      }
    }
    forall i | 0 <= i < |rs| ensures rs[i].userId in UserIds(st.users) {
      if i < |st.requests| {
        assert rs[i] == st.requests[i];
      }
    }
    forall i | 0 <= i < |ps| ensures ps[i].requestId in RequestIds(rs) {
      if i < |st.requestPeers| {
        assert ps[i] == st.requestPeers[i];
      } else {
        assert ps[i] == added[i - |st.requestPeers|];
      }
    }
  }

  lemma CreateRequestPreservesValid(
    st: State, header: Option<string>, body: CreateRequestBody, rid: Uuid, failed: set<nat>, now: Time)
    requires Valid(st)
    requires rid !in RequestIds(st.requests)
    ensures Valid(CreateRequest(st, header, body, rid, failed, now).state)
  {
    var c := CreateRequest(st, header, body, rid, failed, now);
    if Authenticate(st, header).Some? && !AllWhitespace(body.title) {
      var row := c.response.body.data.value.row;
      var added := PeerRows(rid, c.response.body.data.value.peers, failed);
      AddRequestKeepsValid(st, row, added);
      assert c.state == st.(requests := st.requests + [row], requestPeers := st.requestPeers + added);
    }
  }

  /** Rewriting request rows in place, keeping each row's id and owner,
      keeps the store valid. */
  lemma RewriteRequestsKeepsValid(st: State, rs: seq<Request>)
    requires Valid(st)
    requires |rs| == |st.requests|
    requires forall i :: 0 <= i < |rs| ==> rs[i].id == st.requests[i].id && rs[i].userId == st.requests[i].userId
    ensures Valid(st.(requests := rs))
  {
    assert RequestIds(rs) == RequestIds(st.requests) by {
      forall x | x in RequestIds(st.requests) ensures x in RequestIds(rs) {
        var i :| 0 <= i < |st.requests| && st.requests[i].id == x;
        assert rs[i] in rs;
      }
      forall x | x in RequestIds(rs) ensures x in RequestIds(st.requests) {
        var i :| 0 <= i < |rs| && rs[i].id == x;
        assert st.requests[i] in st.requests;
      }
    }
  }

  lemma UpdateRequestStatusPreservesValid(st: State, header: Option<string>, id: Uuid, status: string, now: Time)
    requires Valid(st)
    ensures Valid(UpdateRequestStatus(st, header, id, status, now).state)
  {
    var u := UpdateRequestStatus(st, header, id, status, now);
    if u.response.status == Ok200 {
      RewriteRequestsKeepsValid(st, u.state.requests);
      assert u.state == st.(requests := u.state.requests);
    }
  }

  /** Rewriting a user's score row, keeping its id and owner, keeps the store valid. */
  lemma ReplaceScoreKeepsValid(st: State, scores: map<Uuid, TrustScore>)
    requires Valid(st)
    requires scores.Keys == st.trustScores.Keys
    requires forall u :: u in scores ==>
      scores[u].id == st.trustScores[u].id && scores[u].userId == st.trustScores[u].userId
    ensures Valid(st.(trustScores := scores))
  {
  }

  lemma RecalculatePreservesValid(st: State, header: Option<string>, now: Time)
    requires Valid(st)
    ensures Valid(Recalculate(st, header, now).state)
  {
    var r := Recalculate(st, header, now);
    if uid :| Authenticate(st, header) == Some(uid) {
      var scores := r.state.trustScores;
      assert r.state == st.(trustScores := scores);
      forall u | u in scores
        ensures scores[u].id == st.trustScores[u].id && scores[u].userId == st.trustScores[u].userId
      {
        if u == uid {
          assert scores[uid] == st.trustScores[uid].(score := r.response.body.data.value.score,
                                                      status := r.response.body.data.value.status,
                                                      updatedAt := now);
        }
      }
      ReplaceScoreKeepsValid(st, scores);
    }
  }

  lemma MarkAlertReadPreservesValid(st: State, header: Option<string>, id: Uuid)
    requires Valid(st)
    ensures Valid(MarkAlertRead(st, header, id).state)
  {
    var m := MarkAlertRead(st, header, id);
    if m.response.status == Ok200 {
      assert forall i :: 0 <= i < |st.alerts| ==> m.state.alerts[i].id == st.alerts[i].id;
    }
  }
}

=== FILE: models.dfy ===
/** The rows, request bodies and response DTOs of the service, and the
    `{success, data, error}` envelope every handler answers with. */
module Models {
  import opened Prelude

  /** A row of `users`. */
  datatype User = User(id: Uuid, username: string, email: string, passwordHash: string, createdAt: Time)

  /** What a client may see of a user: everything but the password hash. */
  datatype UserResponse = UserResponse(id: Uuid, username: string, email: string, createdAt: Time)

  /** `From<User> for UserResponse`. */
  function ToUserResponse(u: User): (r: UserResponse)
    ensures r.id == u.id && r.username == u.username && r.email == u.email && r.createdAt == u.createdAt
  {
    UserResponse(u.id, u.username, u.email, u.createdAt)
  }

  /** The projection does not depend on the password hash: two users that
      differ only in their hash look the same to a client. */
  lemma ProjectionHidesHash(u: User, h: string)
    ensures ToUserResponse(u.(passwordHash := h)) == ToUserResponse(u)
  {
  }

  datatype RegisterRequest = RegisterRequest(username: string, email: string, password: string)

  datatype LoginRequest = LoginRequest(email: string, password: string)

  datatype AuthResponse = AuthResponse(user: UserResponse, token: string)

  /** A row of `requests`. `status` is kept as the stored text. */
  datatype Request = Request(
    id: Uuid,
    userId: Uuid,
    title: string,
    description: string,
    status: string,
    stalledDays: int,
    documentId: Option<string>,
    createdAt: Time,
    updatedAt: Time)

  /** The body of `POST /requests`. */
  datatype CreateRequestBody = CreateRequestBody(
    title: string,
    description: string,
    status: Option<string>,
    peers: Option<seq<string>>,
    documentId: Option<string>)

  /** A row of `request_peers`: one peer attributed to one request. */
  datatype RequestPeer = RequestPeer(requestId: Uuid, peerName: string)

  /** A request joined with the names of its attributed peers. */
  datatype RequestWithPeers = RequestWithPeers(row: Request, peers: seq<string>)

  /** A row of `trust_scores`. */
  datatype TrustScore = TrustScore(id: Uuid, userId: Uuid, score: int, status: string, updatedAt: Time)

  /** A row of `network_peers`. The `DOUBLE PRECISION` display coordinates
      are carried as reals and returned unchanged; no operation computes
      with them, so IEEE-754 rounding plays no part. */
  datatype NetworkPeer = NetworkPeer(
    id: Uuid,
    userId: Uuid,
    peerName: string,
    trustLevel: string,
    interactions: int,
    lastInteraction: Time,
    positionX: real,
    positionY: real)

  /** A row of `alerts`. */
  datatype Alert = Alert(
    id: Uuid,
    userId: Uuid,
    title: string,
    message: string,
    alertType: string,
    isRead: bool,
    createdAt: Time)

  datatype TrustFactors = TrustFactors(
    completedRequests: int,
    stalledRequests: int,
    criticalRequests: int,
    totalInteractions: int,
    peerCount: int)

  datatype TrustScoreComputation = TrustScoreComputation(score: int, status: string, factors: TrustFactors)

  /** `{"updated": true}` */
  datatype Updated = Updated(updated: bool)

  /** `{"marked_read": true}` */
  datatype MarkedRead = MarkedRead(markedRead: bool)

  // Column defaults of the schema.
  const DefaultDescription := ""
  const DefaultRequestStatus := "fair"
  const DefaultStalledDays := 0
  const DefaultScore := 300
  const DefaultScoreStatus := "Healthy"
  const DefaultTrustLevel := "Medium"
  const DefaultInteractions := 0
  const DefaultAlertMessage := ""
  const DefaultAlertType := "system"
  const DefaultIsRead := false

  /** `ApiResponse<T>`: the JSON envelope. */
  datatype ApiResponse<T> = ApiResponse(success: bool, data: Option<T>, error: Option<string>) {
    /** Success, presence of data and absence of an error message coincide. */
    predicate WellFormed() {
      (success <==> data.Some?) && (success <==> error.None?)
    }
  }

  /** `ApiResponse::ok` */
  function ApiOk<T>(d: T): (r: ApiResponse<T>)
    ensures r.WellFormed() && r.success
    ensures r.data == Some(d)
  {
    ApiResponse(true, Some(d), None)
  }

  /** `ApiResponse::err` */
  function ApiErr<T>(msg: string): (r: ApiResponse<T>)
    ensures r.WellFormed() && !r.success
    ensures r.error == Some(msg)
  {
    ApiResponse(false, None, Some(msg))
  }

  /** The well-formed envelopes are exactly those the two constructors build. */
  lemma WellFormedIffConstructed<T>(r: ApiResponse<T>)
    ensures r.WellFormed() <==>
      (r.data.Some? && r == ApiOk(r.data.value)) || (r.error.Some? && r == ApiErr(r.error.value))
  {
  }

  /** The HTTP status codes the handlers answer with. */
  datatype HttpStatus = Ok200 | BadRequest400 | Unauthorized401 | NotFound404 | Conflict409 | InternalError500

  /** An HTTP response carrying an envelope. */
  datatype Response<T> = Response(status: HttpStatus, body: ApiResponse<T>) {
    /** A well-formed envelope whose success flag agrees with the status code. */
    predicate WellFormed() {
      body.WellFormed() && (status == Ok200 <==> body.success)
    }
  }

  /** `HttpResponse::Ok().json(ApiResponse::ok(d))` */
  function Success<T>(d: T): (r: Response<T>)
    ensures r.WellFormed() && r.status == Ok200 && r.body.data == Some(d)
  {
    Response(Ok200, ApiOk(d))
  }

  /** An error status with `ApiResponse::err(msg)`. */
  function Failure<T>(code: HttpStatus, msg: string): (r: Response<T>)
    requires code != Ok200
    ensures r.WellFormed() && r.status == code && r.body.error == Some(msg)
  {
    Response(code, ApiErr(msg))
  }
}

=== FILE: prelude.dfy ===
/** Shared vocabulary of the trust-ledger model. */
module Prelude {

  /** Rust's `Option`: an absent or present value. */
  datatype Option<+T> = None | Some(value: T)

  /** A UUID. Only equality between identifiers is ever observed, so any
      countable type will do. */
  type Uuid = nat

  /** A Postgres `TIMESTAMPTZ` reading of `NOW()`, as a natural-number clock. */
  type Time = nat
}

=== FILE: requests.dfy ===
/** The request ledger: listing in priority order, owner-scoped lookup,
    creation with peer attribution, and status updates. */
module Requests {
  import opened Prelude
  import opened Seqs
  import opened Text
  import opened Models
  import opened Store
  import opened Auth

  /** The closed set of statuses an update may set. */
  const ValidStatuses: seq<string> := ["fair", "stalled", "critical", "completed"]

  const TitleRequired := "Title is required"
  const InvalidStatus := "Invalid status. Use: fair, stalled, critical, or completed"
  const RequestNotFound := "Request not found"

  // ---------------------------------------------------------------- reading

  /** `CASE status WHEN 'critical' THEN 0 WHEN 'stalled' THEN 1 ELSE 2 END` */
  function Rank(status: string): (r: nat)
    ensures r <= 2
    ensures r == 0 <==> status == "critical"
    ensures r == 1 <==> status == "stalled"
  {
    if status == "critical" then 0 else if status == "stalled" then 1 else 2
  }

  /** `a` may be listed before `b`: a lower rank, or the same rank and at
      least as many stalled days. */
  predicate ListedBefore(a: Request, b: Request) {
    Rank(a.status) < Rank(b.status) || (Rank(a.status) == Rank(b.status) && a.stalledDays >= b.stalledDays)
  }

  lemma ListedBeforeIsTotalPreorder()
    ensures TotalPreorder(ListedBefore)
  {
  }

  /** `WHERE user_id = $1` */
  function OwnedRequests(rs: seq<Request>, uid: Uuid): (r: seq<Request>)
    ensures forall x :: x in r <==> x in rs && x.userId == uid
  {
    Filter(rs, (x: Request) => x.userId == uid)
  }

  /** `WHERE request_id = $1` */
  function OfRequest(rid: Uuid): RequestPeer -> bool {
    (p: RequestPeer) => p.requestId == rid
  }

  /** The `peer_name` column of some `request_peers` rows, row by row. */
  function NameColumn(rows: seq<RequestPeer>): (names: seq<string>)
    ensures |names| == |rows| && forall i :: 0 <= i < |rows| ==> names[i] == rows[i].peerName
  {
    seq(|rows|, i requires 0 <= i < |rows| => rows[i].peerName)
  }

  /** Rows of one request give each name as often as a row carries it. */
  lemma {:induction false} NameColumnMultiset(rows: seq<RequestPeer>, rid: Uuid)
    requires forall i :: 0 <= i < |rows| ==> rows[i].requestId == rid
    ensures forall n :: multiset(NameColumn(rows))[n] == multiset(rows)[RequestPeer(rid, n)]
    decreases |rows|
  {
    if |rows| > 0 {
      var k := |rows| - 1;
      var init := rows[..k];
      assert rows == init + [rows[k]];
      assert NameColumn(rows) == NameColumn(init) + [rows[k].peerName];
      NameColumnMultiset(init, rid);
      assert rows[k] == RequestPeer(rid, rows[k].peerName);
    }
  }

  /** `SELECT * FROM request_peers WHERE request_id = $1`, names only:
      one name per row of the request. */
  function PeerNames(peers: seq<RequestPeer>, rid: Uuid): (names: seq<string>)
    ensures forall n :: n in names <==> RequestPeer(rid, n) in peers
    ensures forall n :: multiset(names)[n] == multiset(peers)[RequestPeer(rid, n)]
  {
    var rows := Filter(peers, OfRequest(rid));
    var names := NameColumn(rows);
    FilterMultiset(peers, OfRequest(rid));
    assert forall i :: 0 <= i < |rows| ==> rows[i].requestId == rid by {
      forall i | 0 <= i < |rows| ensures rows[i].requestId == rid {
        assert rows[i] in rows;
      }
    }
    NameColumnMultiset(rows, rid);
    names
  }

  /** A request joined with its peers' names. */
  function WithPeers(st: State, x: Request): (r: RequestWithPeers)
    ensures r.row == x && r.peers == PeerNames(st.requestPeers, x.id)
  {
    RequestWithPeers(x, PeerNames(st.requestPeers, x.id))
  }

  function Rows(xs: seq<RequestWithPeers>): (r: seq<Request>)
    ensures |r| == |xs| && forall i :: 0 <= i < |xs| ==> r[i] == xs[i].row
  {
    seq(|xs|, i requires 0 <= i < |xs| => xs[i].row)
  }

  /** The body of `list_requests`: the caller's requests, each once per row,
      in priority order, with their peers. */
  function Listing(st: State, uid: Uuid): (r: seq<RequestWithPeers>)
    ensures forall x :: multiset(Rows(r))[x] == if x.userId == uid then multiset(st.requests)[x] else 0
    ensures SortedBy(Rows(r), ListedBefore)
    ensures forall i :: 0 <= i < |r| ==> r[i].peers == PeerNames(st.requestPeers, r[i].row.id)
  {
    ListedBeforeIsTotalPreorder();
    FilterMultiset(st.requests, (x: Request) => x.userId == uid);
    var sorted := Sort(OwnedRequests(st.requests, uid), ListedBefore);
    var r := seq(|sorted|, i requires 0 <= i < |sorted| => WithPeers(st, sorted[i]));
    assert Rows(r) == sorted;
    r
  }

  /** `list_requests` */
  function ListRequests(st: State, header: Option<string>): (r: Handled<seq<RequestWithPeers>>)
    ensures r.state == st && r.response.WellFormed()
    ensures Authenticate(st, header).None? ==> r == Refuse(st, Unauthorized401, NotAuthenticated)
    ensures Authenticate(st, header).Some? ==> r.response == Success(Listing(st, Authenticate(st, header).value))
  {
    match Authenticate(st, header)
    case None => Refuse(st, Unauthorized401, NotAuthenticated)
    case Some(uid) => Handled(Success(Listing(st, uid)), st)
  }

  /** `x` is request `id` and belongs to `uid`. */
  predicate Matches(x: Request, uid: Uuid, id: Uuid) {
    x.id == id && x.userId == uid
  }

  /** `SELECT * FROM requests WHERE id = $1 AND user_id = $2` */
  function FindOwned(rs: seq<Request>, uid: Uuid, id: Uuid): (r: Option<Request>)
    ensures r.Some? ==> r.value in rs && Matches(r.value, uid, id)
    ensures r.None? <==> forall x :: x in rs ==> !Matches(x, uid, id)
  {
    Find(rs, (x: Request) => Matches(x, uid, id))
  }

  /** `get_request` */
  function GetRequest(st: State, header: Option<string>, id: Uuid): (r: Handled<RequestWithPeers>)
    ensures r.state == st && r.response.WellFormed()
    ensures Authenticate(st, header).None? ==> r == Refuse(st, Unauthorized401, NotAuthenticated)
    ensures Authenticate(st, header).Some? ==>
      var uid := Authenticate(st, header).value;
      && (r.response.status == Ok200 <==> exists x :: x in st.requests && Matches(x, uid, id))
      && (r.response.status != Ok200 ==> r == Refuse(st, NotFound404, RequestNotFound))
      && (r.response.status == Ok200 ==>
            var d := r.response.body.data.value;
            d.row in st.requests && Matches(d.row, uid, id) && d.peers == PeerNames(st.requestPeers, id))
  {
    match Authenticate(st, header)
    case None => Refuse(st, Unauthorized401, NotAuthenticated)
    case Some(uid) =>
      match FindOwned(st.requests, uid, id)
      case None => Refuse(st, NotFound404, RequestNotFound)
      case Some(x) => Handled(Success(WithPeers(st, x)), st)
  }

  // ---------------------------------------------------------------- writing

  /** The peers named in a creation body; none when the list is omitted. */
  function RequestedPeers(body: CreateRequestBody): seq<string> {
    match body.peers
    case None => []
    case Some(ps) => ps
  }

  /** How many of the positions below `n` are not in `failed`: where the
      row of position `n` lands when it is stored. */
  function Kept(n: nat, failed: set<nat>): (c: nat)
    ensures c <= n
    ensures failed == {} ==> c == n
  {
    if n == 0 then 0 else Kept(n - 1, failed) + (if n - 1 in failed then 0 else 1)
  }

  /** A stored position lands strictly before every later stored position,
      so `StoresKept` keeps the order of `names`. */
  lemma {:induction false} KeptIncreasing(j: nat, k: nat, failed: set<nat>)
    requires j < k && j !in failed
    ensures Kept(j, failed) < Kept(k, failed)
    decreases k
  {
    if j < k - 1 {
      KeptIncreasing(j, k - 1, failed);
    }
  }

  /** Rows `r` hold, in order, a row of request `rid` for each position of
      `names` outside `failed`. */
  ghost predicate StoresKept(rid: Uuid, names: seq<string>, failed: set<nat>, r: seq<RequestPeer>) {
    && |r| == Kept(|names|, failed)
    && (forall k {:trigger names[k]} :: 0 <= k < |names| && k !in failed ==>
          Kept(k, failed) < |r| && r[Kept(k, failed)] == RequestPeer(rid, names[k]))
  }

  /** Every row of `r` belongs to request `rid` and names one of `names`. */
  ghost predicate RowsOf(rid: Uuid, names: seq<string>, r: seq<RequestPeer>) {
    forall i :: 0 <= i < |r| ==> r[i].requestId == rid && r[i].peerName in names
  }

  /** The row of the last position, stored unless it failed. */
  function LastRow(rid: Uuid, names: seq<string>, failed: set<nat>): (t: seq<RequestPeer>)
    requires |names| > 0
    ensures |t| == if |names| - 1 in failed then 0 else 1
    ensures forall i :: 0 <= i < |t| ==> t[i] == RequestPeer(rid, names[|names| - 1])
  {
    if |names| - 1 in failed then [] else [RequestPeer(rid, names[|names| - 1])]
  }

  /** Appending the row of the last position keeps `StoresKept`. */
  lemma StoresKeptSnoc(rid: Uuid, names: seq<string>, failed: set<nat>, init: seq<RequestPeer>)
    requires |names| > 0
    requires StoresKept(rid, names[..|names| - 1], failed, init)
    ensures StoresKept(rid, names, failed, init + LastRow(rid, names, failed))
  {
    var k := |names| - 1;
    var last := LastRow(rid, names, failed);
    var r := init + last;
    assert |r| == Kept(|names|, failed);
    forall j | 0 <= j < |names| && j !in failed
      ensures Kept(j, failed) < |r| && r[Kept(j, failed)] == RequestPeer(rid, names[j])
    {
      if j < k {
        assert names[..k][j] == names[j];
        assert r[Kept(j, failed)] == init[Kept(j, failed)];
      } else {
        assert Kept(j, failed) == |init|;
        assert r[|init|] == last[0];
      }
    }
  }

  /** Appending the row of the last position keeps `RowsOf`. */
  lemma RowsOfSnoc(rid: Uuid, names: seq<string>, failed: set<nat>, init: seq<RequestPeer>)
    requires |names| > 0
    requires RowsOf(rid, names[..|names| - 1], init)
    ensures RowsOf(rid, names, init + LastRow(rid, names, failed))
  {
    var k := |names| - 1;
    var r := init + LastRow(rid, names, failed);
    forall i | 0 <= i < |r| ensures r[i].requestId == rid && r[i].peerName in names {
      if i < |init| {
        var j :| 0 <= j < k && names[..k][j] == init[i].peerName;
        assert names[j] == init[i].peerName;
      }
    }
  }

  /** The `request_peers` rows the creation loop stores: one per name, in
      order, except at the positions whose INSERT failed. */
  function PeerRows(rid: Uuid, names: seq<string>, failed: set<nat>): (r: seq<RequestPeer>)
    ensures StoresKept(rid, names, failed, r)
    ensures RowsOf(rid, names, r)
    ensures failed == {} ==> |r| == |names| && forall i :: 0 <= i < |r| ==> r[i].peerName == names[i]
    decreases |names|
  {
    if |names| == 0 then []
    else
      var k := |names| - 1;
      var init := PeerRows(rid, names[..k], failed);
      StoresKeptSnoc(rid, names, failed, init);
      RowsOfSnoc(rid, names, failed, init);
      init + LastRow(rid, names, failed)
  }

  /** Rows stored for a request id no earlier row mentions are, in order,
      all the peers of that request. */
  lemma PeerNamesOfFreshRequest(peers: seq<RequestPeer>, rows: seq<RequestPeer>, rid: Uuid)
    requires forall i :: 0 <= i < |peers| ==> peers[i].requestId != rid
    requires forall i :: 0 <= i < |rows| ==> rows[i].requestId == rid
    ensures PeerNames(peers + rows, rid) == NameColumn(rows)
  {
    FreshRequestRows(peers, rows, rid);
  }

  /** With every insert succeeding, a fresh request reads back exactly the
      names it was created with. */
  lemma PeerNamesAfterCreate(peers: seq<RequestPeer>, rid: Uuid, names: seq<string>)
    requires forall i :: 0 <= i < |peers| ==> peers[i].requestId != rid
    ensures PeerNames(peers + PeerRows(rid, names, {}), rid) == names
  {
    var rows := PeerRows(rid, names, {});
    PeerNamesOfFreshRequest(peers, rows, rid);
    assert NameColumn(rows) == names;
  }

  lemma FreshRequestRows(peers: seq<RequestPeer>, rows: seq<RequestPeer>, rid: Uuid)
    requires forall i :: 0 <= i < |peers| ==> peers[i].requestId != rid
    requires forall i :: 0 <= i < |rows| ==> rows[i].requestId == rid
    ensures Filter(peers + rows, OfRequest(rid)) == rows
  {
    var p := OfRequest(rid);
    assert forall i :: 0 <= i < |peers| ==> !p(peers[i]);
    assert forall i :: 0 <= i < |rows| ==> p(rows[i]);
    FilterKeepsNone(peers, p);
    FilterKeepsAll(rows, p);
    FilterConcat(peers, rows, p);
  }

  /** `create_request`. `rid` is the fresh UUID; `failedPeers` holds the
      positions of the peer INSERTs that failed (their errors are ignored). */
  function CreateRequest(
    st: State, header: Option<string>, body: CreateRequestBody,
    rid: Uuid, failedPeers: set<nat>, now: Time): (r: Handled<RequestWithPeers>)
    requires rid !in RequestIds(st.requests)
    ensures r.response.WellFormed()
    ensures Authenticate(st, header).None? ==> r == Refuse(st, Unauthorized401, NotAuthenticated)
    ensures Authenticate(st, header).Some? && AllWhitespace(body.title) ==>
      r == Refuse(st, BadRequest400, TitleRequired)
    ensures Authenticate(st, header).Some? && !AllWhitespace(body.title) ==>
      var uid := Authenticate(st, header).value;
      && r.response.status == Ok200
      && var d := r.response.body.data.value;
      && d.row.id == rid && d.row.userId == uid
      && d.row.title == Trim(body.title) && d.row.description == body.description
      && d.row.status == DefaultRequestStatus && d.row.stalledDays == DefaultStalledDays
      && d.row.documentId == body.documentId
      && d.row.createdAt == now && d.row.updatedAt == now
      && d.peers == RequestedPeers(body)
      && r.state.requests == st.requests + [d.row]
      && r.state.requestPeers == st.requestPeers + PeerRows(rid, d.peers, failedPeers)
      && r.state.(requests := st.requests, requestPeers := st.requestPeers) == st
  {
    match Authenticate(st, header)
    case None => Refuse(st, Unauthorized401, NotAuthenticated)
    case Some(uid) =>
      var title := Trim(body.title);
      if title == [] then Refuse(st, BadRequest400, TitleRequired)
      else
        var row := Request(rid, uid, title, body.description, DefaultRequestStatus,
                           DefaultStalledDays, body.documentId, now, now);
        var names := RequestedPeers(body);
        var st' := st.(requests := st.requests + [row],
                       requestPeers := st.requestPeers + PeerRows(rid, names, failedPeers));
        Handled(Success(RequestWithPeers(row, names)), st')
  }

  /** The rows `UPDATE requests SET status = $1, updated_at = NOW() WHERE id = $2 AND user_id = $3` leaves. */
  function SetStatus(rs: seq<Request>, uid: Uuid, id: Uuid, status: string, now: Time): (r: seq<Request>)
    ensures |r| == |rs|
    ensures forall i :: 0 <= i < |rs| ==>
      r[i] == if Matches(rs[i], uid, id) then rs[i].(status := status, updatedAt := now) else rs[i]
  {
    seq(|rs|, i requires 0 <= i < |rs| =>
      if Matches(rs[i], uid, id) then rs[i].(status := status, updatedAt := now) else rs[i])
  }

  /** `update_request_status` */
  function UpdateRequestStatus(
    st: State, header: Option<string>, id: Uuid, status: string, now: Time): (r: Handled<Updated>)
    ensures r.response.WellFormed()
    ensures Authenticate(st, header).None? ==> r == Refuse(st, Unauthorized401, NotAuthenticated)
    ensures Authenticate(st, header).Some? && status !in ValidStatuses ==>
      r == Refuse(st, BadRequest400, InvalidStatus)
    ensures Authenticate(st, header).Some? && status in ValidStatuses ==>
      var uid := Authenticate(st, header).value;
      && (r.response.status == Ok200 <==> exists x :: x in st.requests && Matches(x, uid, id))
      && (r.response.status != Ok200 ==> r == Refuse(st, NotFound404, RequestNotFound))
      && (r.response.status == Ok200 ==>
            && r.response.body.data == Some(Updated(true))
            && |r.state.requests| == |st.requests|
            && (forall i :: 0 <= i < |st.requests| ==>
                  r.state.requests[i] ==
                    if Matches(st.requests[i], uid, id)
                    then st.requests[i].(status := status, updatedAt := now)
                    else st.requests[i])
            && r.state.(requests := st.requests) == st)
  {
    match Authenticate(st, header)
    case None => Refuse(st, Unauthorized401, NotAuthenticated)
    case Some(uid) =>
      if status !in ValidStatuses then Refuse(st, BadRequest400, InvalidStatus)
      else
        var affected := Filter(st.requests, (x: Request) => Matches(x, uid, id));
        if |affected| == 0 then Refuse(st, NotFound404, RequestNotFound)
        else
          assert affected[0] in affected;
          Handled(Success(Updated(true)), st.(requests := SetStatus(st.requests, uid, id, status, now)))
  }
}

=== FILE: seqs.dfy ===
/** Sequence operations standing in for SQL `WHERE`, `fetch_optional` and
    `ORDER BY` over the rows of one table. */
module Seqs {
  import opened Prelude

  /** The elements of `xs` that satisfy `p`, in their original order. */
  function Filter<T(!new)>(xs: seq<T>, p: T -> bool): (r: seq<T>)
    ensures |r| <= |xs|
    ensures forall x :: x in r <==> x in xs && p(x)
    decreases |xs|
  {
    if |xs| == 0 then []
    else
      var init := xs[..|xs| - 1];
      var last := xs[|xs| - 1];
      assert xs == init + [last];
      Filter(init, p) + (if p(last) then [last] else [])
  }

  /** Filtering keeps every qualifying element as often as it occurs, and nothing else. */
  lemma {:induction false} FilterMultiset<T(!new)>(xs: seq<T>, p: T -> bool)
    ensures forall x :: multiset(Filter(xs, p))[x] == if p(x) then multiset(xs)[x] else 0
    decreases |xs|
  {
    if |xs| > 0 {
      var init := xs[..|xs| - 1];
      var last := xs[|xs| - 1];
      assert xs == init + [last];
      FilterMultiset(init, p);
    }
  }

  /** Appending one row extends the filtered view by that row exactly when it qualifies. */
  lemma FilterAppend<T(!new)>(xs: seq<T>, x: T, p: T -> bool)
    ensures Filter(xs + [x], p) == Filter(xs, p) + (if p(x) then [x] else [])
  {
    assert (xs + [x])[..|xs|] == xs;
  }

  /** Filtering distributes over concatenation. */
  lemma {:induction false} FilterConcat<T(!new)>(xs: seq<T>, ys: seq<T>, p: T -> bool)
    ensures Filter(xs + ys, p) == Filter(xs, p) + Filter(ys, p)
    decreases |ys|
  {
    if |ys| == 0 {
      assert xs + ys == xs;
    } else {
      var init := ys[..|ys| - 1];
      var last := ys[|ys| - 1];
      var tail := if p(last) then [last] else [];
      assert ys == init + [last];
      calc {
        Filter(xs + ys, p);
        { assert xs + ys == (xs + init) + [last]; }
        Filter((xs + init) + [last], p);
        { FilterAppend(xs + init, last, p); }
        Filter(xs + init, p) + tail;
        { FilterConcat(xs, init, p); }
        (Filter(xs, p) + Filter(init, p)) + tail;
        Filter(xs, p) + (Filter(init, p) + tail);
        { FilterAppend(init, last, p); }
        Filter(xs, p) + Filter(ys, p);
      }
    }
  }

  /** Filtering with a condition every element meets changes nothing. */
  lemma {:induction false} FilterKeepsAll<T(!new)>(xs: seq<T>, p: T -> bool)
    requires forall i :: 0 <= i < |xs| ==> p(xs[i])
    ensures Filter(xs, p) == xs
    decreases |xs|
  {
    if |xs| > 0 {
      var init := xs[..|xs| - 1];
      assert xs == init + [xs[|xs| - 1]];
      FilterKeepsAll(init, p);
    }
  }

  /** Filtering with a condition no element meets leaves nothing. */
  lemma {:induction false} FilterKeepsNone<T(!new)>(xs: seq<T>, p: T -> bool)
    requires forall i :: 0 <= i < |xs| ==> !p(xs[i])
    ensures Filter(xs, p) == []
    decreases |xs|
  {
    if |xs| > 0 {
      var init := xs[..|xs| - 1];
      assert xs == init + [xs[|xs| - 1]];
      FilterKeepsNone(init, p);
    }
  }

  /** Changing the single element at index `j` changes the number of
      qualifying elements by at most the difference at that index. */
  lemma {:induction false} FilterCountPointUpdate<T(!new)>(xs: seq<T>, ys: seq<T>, j: nat, p: T -> bool)
    requires |xs| == |ys| && j < |xs|
    requires forall i :: 0 <= i < |xs| && i != j ==> xs[i] == ys[i]
    ensures |Filter(ys, p)| + (if p(xs[j]) then 1 else 0) == |Filter(xs, p)| + (if p(ys[j]) then 1 else 0)
    decreases |xs|
  {
    var n := |xs| - 1;
    var xi, yi := xs[..n], ys[..n];
    assert xs == xi + [xs[n]];
    assert ys == yi + [ys[n]];
    FilterAppend(xi, xs[n], p);
    FilterAppend(yi, ys[n], p);
    if j == n {
      assert xi == yi;
    } else {
      assert xs[n] == ys[n];
      FilterCountPointUpdate(xi, yi, j, p);
    }
  }

  /** Taking one occurrence of `x` out of two equal multisets leaves equal multisets. */
  lemma MultisetRemove<T>(a: seq<T>, b: seq<T>, c: seq<T>, x: T)
    requires multiset(a + [x]) == multiset(b + [x] + c)
    ensures multiset(a) == multiset(b + c)
  {
    calc {
      multiset(a);
      multiset(a) + multiset{x} - multiset{x};
      multiset(a + [x]) - multiset{x};
      multiset(b + [x] + c) - multiset{x};
      multiset(b) + multiset(c) + multiset{x} - multiset{x};
      multiset(b + c);
    }
  }

  /** The first element of `xs` satisfying `p`, as `fetch_optional` returns it. */
  function Find<T(!new)>(xs: seq<T>, p: T -> bool): (r: Option<T>)
    ensures r.Some? ==> r.value in xs && p(r.value)
    ensures r.None? <==> forall x :: x in xs ==> !p(x)
  {
    if |xs| == 0 then None
    else if p(xs[0]) then Some(xs[0])
    else Find(xs[1..], p)
  }

  /** `leq` is total and transitive: a sort key of the `ORDER BY` kind. */
  ghost predicate TotalPreorder<T(!new)>(leq: (T, T) -> bool) {
    && (forall a, b :: leq(a, b) || leq(b, a))
    && (forall a, b, c :: leq(a, b) && leq(b, c) ==> leq(a, c))
  }

  predicate SortedBy<T>(xs: seq<T>, leq: (T, T) -> bool) {
    forall i, j :: 0 <= i < j < |xs| ==> leq(xs[i], xs[j])
  }

  /** Inserts `x` into the sorted `xs` after every element that must precede it. */
  function Insert<T(!new)>(x: T, xs: seq<T>, leq: (T, T) -> bool): (r: seq<T>)
    requires TotalPreorder(leq)
    requires SortedBy(xs, leq)
    ensures SortedBy(r, leq)
    ensures multiset(r) == multiset(xs) + multiset{x}
    decreases |xs|
  {
    if |xs| == 0 then [x]
    else if leq(x, xs[0]) then [x] + xs
    else
      var rest := Insert(x, xs[1..], leq);
      assert xs == [xs[0]] + xs[1..];
      assert forall k | 0 <= k < |rest| :: leq(xs[0], rest[k]) by {
        forall k | 0 <= k < |rest|
          ensures leq(xs[0], rest[k])
        {
          assert rest[k] in multiset(rest);
          if rest[k] != x {
            assert rest[k] in multiset(xs[1..]);
            var m :| 0 <= m < |xs[1..]| && xs[1..][m] == rest[k];
            assert xs[m + 1] == rest[k];
          }
        }
      }
      [xs[0]] + rest
  }

  /** A stable insertion sort: a sorted permutation of `xs`. */
  function Sort<T(!new)>(xs: seq<T>, leq: (T, T) -> bool): (r: seq<T>)
    requires TotalPreorder(leq)
    ensures SortedBy(r, leq)
    ensures multiset(r) == multiset(xs)
    ensures |r| == |xs|
    decreases |xs|
  {
    if |xs| == 0 then []
    else
      assert xs == [xs[0]] + xs[1..];
      Insert(xs[0], Sort(xs[1..], leq), leq)
  }
}

=== FILE: store.dfy ===
/** The database as one immutable value, and the shape of a handler's result. */
module Store {
  import opened Prelude
  import opened Models

  /** The tables the handlers read and write. `sessions` maps a token to
      its user; `trustScores` is keyed by user, as its `user_id` is unique. */
  datatype State = State(
    users: seq<User>,
    sessions: map<string, Uuid>,
    requests: seq<Request>,
    requestPeers: seq<RequestPeer>,
    trustScores: map<Uuid, TrustScore>,
    networkPeers: seq<NetworkPeer>,
    alerts: seq<Alert>)

  /** A handler's answer and the store it leaves behind. */
  datatype Handled<T> = Handled(response: Response<T>, state: State)

  /** An error answer that leaves the store as it was. */
  function Refuse<T>(st: State, code: HttpStatus, msg: string): (r: Handled<T>)
    requires code != Ok200
    ensures r.state == st && r.response.WellFormed() && !r.response.body.success
    ensures r.response.status == code && r.response.body.error == Some(msg)
  {
    Handled(Failure(code, msg), st)
  }

  const NotAuthenticated := "Not authenticated"

  function UserIds(users: seq<User>): set<Uuid> {
    set u | u in users :: u.id
  }

  function RequestIds(requests: seq<Request>): set<Uuid> {
    set r | r in requests :: r.id
  }

  /** The `id` column of `trust_scores`. */
  function ScoreIds(scores: map<Uuid, TrustScore>): set<Uuid> {
    set u | u in scores :: scores[u].id
  }

  /** `trust_scores`: each row sits under its own `user_id`, which names a
      user, and no two rows share an `id`. */
  predicate ScoreKeys(scores: map<Uuid, TrustScore>, users: seq<User>) {
    && (forall u :: u in scores ==> scores[u].userId == u && u in UserIds(users))
    && (forall u, v :: u in scores && v in scores && u != v ==> scores[u].id != scores[v].id)
  }

  /** `users`: primary key and the unique `email` and `username` columns. */
  predicate UserKeys(users: seq<User>) {
    && (forall i, j :: 0 <= i < j < |users| ==> users[i].id != users[j].id)
    && (forall i, j :: 0 <= i < j < |users| ==> users[i].email != users[j].email)
    && (forall i, j :: 0 <= i < j < |users| ==> users[i].username != users[j].username)
  }

  /** `requests` and `request_peers`: the request primary key, and the
      foreign keys to `users` and to `requests`. */
  predicate RequestKeys(requests: seq<Request>, peers: seq<RequestPeer>, users: seq<User>) {
    && (forall i, j :: 0 <= i < j < |requests| ==> requests[i].id != requests[j].id)
    && (forall i :: 0 <= i < |requests| ==> requests[i].userId in UserIds(users))
    && (forall i :: 0 <= i < |peers| ==> peers[i].requestId in RequestIds(requests))
  }

  /** The constraints the schema enforces: primary keys, unique columns and
      the foreign keys the handlers rely on. */
  predicate Valid(st: State) {
    && UserKeys(st.users)
    && (forall t :: t in st.sessions ==> st.sessions[t] in UserIds(st.users))
    && ScoreKeys(st.trustScores, st.users)
    && RequestKeys(st.requests, st.requestPeers, st.users)
    && (forall i, j :: 0 <= i < j < |st.alerts| ==> st.alerts[i].id != st.alerts[j].id)
  }
}

=== FILE: text.dfy ===
/** The string primitives the handlers rely on: Rust's `str::trim`,
    `str::len` (a UTF-8 byte count), `str::strip_prefix`, and character search. */
module Text {
  import opened Prelude

  /** Rust's `char::is_whitespace`: the Unicode `White_Space` property. */
  predicate IsWhitespace(c: char) {
    var n := c as int;
    || n == 0x20 || 0x09 <= n <= 0x0D || n == 0x85 || n == 0xA0 || n == 0x1680
    || 0x2000 <= n <= 0x200A || n == 0x2028 || n == 0x2029 || n == 0x202F
    || n == 0x205F || n == 0x3000
  }

  predicate AllWhitespace(s: string) {
    forall i :: 0 <= i < |s| ==> IsWhitespace(s[i])
  }

  /** Number of whitespace characters at the start of `s`. */
  function LeadingSpace(s: string): (n: nat)
    ensures n <= |s|
    ensures AllWhitespace(s[..n])
    ensures n < |s| ==> !IsWhitespace(s[n])
  {
    if |s| == 0 || !IsWhitespace(s[0]) then 0
    else
      var k := LeadingSpace(s[1..]);
      assert s[..k + 1] == [s[0]] + s[1..][..k];
      k + 1
  }

  /** Number of whitespace characters at the end of `s`. */
  function TrailingSpace(s: string): (n: nat)
    ensures n <= |s|
    ensures AllWhitespace(s[|s| - n..])
    ensures n < |s| ==> !IsWhitespace(s[|s| - n - 1])
  {
    if |s| == 0 || !IsWhitespace(s[|s| - 1]) then 0
    else
      var init := s[..|s| - 1];
      var k := TrailingSpace(init);
      assert s[|s| - (k + 1)..] == init[|init| - k..] + [s[|s| - 1]];
      k + 1
  }

  /** `str::trim`: `s` without its leading and trailing whitespace. */
  function Trim(s: string): (r: string)
    ensures |r| <= |s|
    ensures r == [] <==> AllWhitespace(s)
    ensures r != [] ==> !IsWhitespace(r[0]) && !IsWhitespace(r[|r| - 1])
  {
    var a := LeadingSpace(s);
    var rest := s[a..];
    var r := rest[..|rest| - TrailingSpace(rest)];
    assert r == [] ==> AllWhitespace(s) by {
      if r == [] {
        assert rest == rest[|rest| - TrailingSpace(rest)..];
        assert s == s[..a] + rest;
      }
    }
    r
  }

  /** Trimming a padded string gives back exactly the core it was padded around. */
  lemma {:induction false} TrimPadded(pre: string, core: string, post: string)
    requires AllWhitespace(pre) && AllWhitespace(post)
    requires core != [] ==> !IsWhitespace(core[0]) && !IsWhitespace(core[|core| - 1])
    ensures Trim(pre + core + post) == core
  {
    var s := pre + core + post;
    if core == [] {
      assert AllWhitespace(s) by {
        forall i | 0 <= i < |s| ensures IsWhitespace(s[i]) {
          if i < |pre| { assert s[i] == pre[i]; } else { assert s[i] == post[i - |pre|]; }
        }
      }
    } else {
      LeadingOfPadded(pre, core + post);
      assert s == pre + (core + post);
      var rest := s[|pre|..];
      assert rest == core + post;
      TrailingOfPadded(core, post);
    }
  }

  lemma {:induction false} LeadingOfPadded(pre: string, s: string)
    requires AllWhitespace(pre)
    requires s != [] && !IsWhitespace(s[0])
    ensures LeadingSpace(pre + s) == |pre|
    decreases |pre|
  {
    if pre != [] {
      assert (pre + s)[1..] == pre[1..] + s;
      LeadingOfPadded(pre[1..], s);
    } else {
      assert pre + s == s;
    }
  }

  lemma {:induction false} TrailingOfPadded(s: string, post: string)
    requires AllWhitespace(post)
    requires s != [] && !IsWhitespace(s[|s| - 1])
    ensures TrailingSpace(s + post) == |post|
    decreases |post|
  {
    if post != [] {
      var init := post[..|post| - 1];
      assert (s + post)[..|s + post| - 1] == s + init;
      TrailingOfPadded(s, init);
    } else {
      assert s + post == s;
    }
  }

  /** Trimming twice trims no further. */
  lemma TrimIdempotent(s: string)
    ensures Trim(Trim(s)) == Trim(s)
  {
    TrimPadded([], Trim(s), []);
    assert [] + Trim(s) + [] == Trim(s);
  }

  /** Number of bytes `c` occupies in UTF-8. */
  function Utf8Width(c: char): nat {
    var n := c as int;
    if n < 0x80 then 1 else if n < 0x800 then 2 else if n < 0x1_0000 then 3 else 4
  }

  predicate IsAscii(s: string) {
    forall i :: 0 <= i < |s| ==> s[i] as int < 0x80
  }

  /** Rust's `str::len`: the length of `s` in UTF-8 bytes. */
  function Utf8Len(s: string): (n: nat)
    ensures |s| <= n <= 4 * |s|
    ensures n == |s| <==> IsAscii(s)
  {
    if |s| == 0 then 0
    else
      var n := Utf8Width(s[0]) + Utf8Len(s[1..]);
      assert IsAscii(s) <==> s[0] as int < 0x80 && IsAscii(s[1..]) by {
        if s[0] as int < 0x80 && IsAscii(s[1..]) {
          forall i | 0 <= i < |s| ensures s[i] as int < 0x80 {
            if i > 0 { assert s[i] == s[1..][i - 1]; }
          }
        }
      }
      n
  }

  /** `str::strip_prefix`: the remainder of `s` after `prefix`, if `s` starts with it. */
  function StripPrefix(s: string, prefix: string): (r: Option<string>)
    ensures r.Some? <==> |prefix| <= |s| && s[..|prefix|] == prefix
    ensures r.Some? ==> prefix + r.value == s
  {
    if prefix <= s then Some(s[|prefix|..]) else None
  }

  /** Position of the first `c` in `s`. */
  function IndexOf(s: string, c: char): (r: Option<nat>)
    ensures r.None? <==> c !in s
    ensures r.Some? ==> r.value < |s| && s[r.value] == c
    ensures r.Some? ==> forall j :: 0 <= j < r.value ==> s[j] != c
  {
    if |s| == 0 then None
    else if s[0] == c then Some(0)
    else
      match IndexOf(s[1..], c)
      case None => None
      case Some(i) =>
        assert forall j :: 0 < j <= i ==> s[j] == s[1..][j - 1];
        Some(i + 1)
  }

  /** Position of the last `c` in `s`. */
  function LastIndexOf(s: string, c: char): (r: Option<nat>)
    ensures r.None? <==> c !in s
    ensures r.Some? ==> r.value < |s| && s[r.value] == c
    ensures r.Some? ==> forall j :: r.value < j < |s| ==> s[j] != c
  {
    if |s| == 0 then None
    else if s[|s| - 1] == c then Some(|s| - 1)
    else
      var init := s[..|s| - 1];
      assert s == init + [s[|s| - 1]];
      match LastIndexOf(init, c)
      case None => None
      case Some(i) => Some(i)
  }

  /** The first `c` is at `i` when `s[i]` is one and none comes earlier. */
  lemma IndexOfAt(s: string, c: char, i: nat)
    requires i < |s| && s[i] == c
    requires forall j :: 0 <= j < i ==> s[j] != c
    ensures IndexOf(s, c) == Some(i)
  {
    assert s[i] in s;
  }

  /** The last `c` is at `i` when `s[i]` is one and none comes later. */
  lemma LastIndexOfAt(s: string, c: char, i: nat)
    requires i < |s| && s[i] == c
    requires forall j :: i < j < |s| ==> s[j] != c
    ensures LastIndexOf(s, c) == Some(i)
  {
    assert s[i] in s;
  }
}

=== FILE: trust.dfy ===
/** The trust-scoring engine: the clamped score formula with its three-way
    classification, the per-user recalculation, and the peer listing. */
module Trust {
  import opened Prelude
  import opened Seqs
  import opened Models
  import opened Store
  import opened Auth

  const BaseScore := 300
  const CompletedBonus := 20
  const PeerBonus := 10
  const StalledPenalty := 15
  const CriticalPenalty := 30
  const MinScore := 0
  const MaxScore := 1000
  const HealthyThreshold := 400
  const FairThreshold := 200

  const NoTrustScore := "No trust score found"

  /** An `f64 as i32` cast: truncation toward zero (saturation is not modelled). */
  function TruncateTowardZero(x: real): int {
    if x >= 0.0 then x.Floor else -((-x).Floor)
  }

  /** `(interactions as f64 * 1.5) as i32`. Every `i32` times 1.5 is exact
      in `f64`, so the product is computed over the reals. */
  function InteractionBonus(interactions: int): (b: int)
    ensures interactions >= 0 ==> b == (3 * interactions) / 2
    ensures interactions < 0 ==> b == -((3 * -interactions) / 2)
  {
    TruncateTowardZero(interactions as real * 1.5)
  }

  function Clamp(x: int, lo: int, hi: int): (r: int)
    requires lo <= hi
    ensures lo <= r <= hi
    ensures lo <= x <= hi ==> r == x
    ensures x < lo ==> r == lo
    ensures x > hi ==> r == hi
  {
    if x < lo then lo else if x > hi then hi else x
  }

  /** The three-way classification, first matching threshold wins. */
  function Classify(score: int): (r: string)
    ensures r == "Healthy" <==> score >= HealthyThreshold
    ensures r == "Fair" <==> FairThreshold <= score < HealthyThreshold
    ensures r == "Critical" <==> score < FairThreshold
  {
    if score >= HealthyThreshold then "Healthy"
    else if score >= FairThreshold then "Fair"
    else "Critical"
  }

  /** `compute_trust_score` */
  function ComputeTrustScore(completed: int, stalled: int, critical: int, interactions: int, peerCount: int): (r: TrustScoreComputation)
    ensures MinScore <= r.score <= MaxScore
    ensures r.status == "Healthy" <==> r.score >= 400
    ensures r.status == "Fair" <==> 200 <= r.score < 400
    ensures r.status == "Critical" <==> r.score < 200
    ensures r.factors == TrustFactors(completed, stalled, critical, interactions, peerCount)
    ensures interactions >= 0 ==>
      r.score == Clamp(300 + 20 * completed + (3 * interactions) / 2 + 10 * peerCount
                         - 15 * stalled - 30 * critical, 0, 1000)
    ensures interactions < 0 ==>
      r.score == Clamp(300 + 20 * completed - (3 * -interactions) / 2 + 10 * peerCount
                         - 15 * stalled - 30 * critical, 0, 1000)
  {
    var raw := BaseScore + completed * CompletedBonus + InteractionBonus(interactions)
               + peerCount * PeerBonus - stalled * StalledPenalty - critical * CriticalPenalty;
    var score := Clamp(raw, MinScore, MaxScore);
    TrustScoreComputation(score, Classify(score), TrustFactors(completed, stalled, critical, interactions, peerCount))
  }

  /** More completed requests, interactions or peers never lower the score;
      more stalled or critical requests never raise it. */
  lemma ScoreMonotone(
    c1: int, s1: int, k1: int, i1: int, p1: int,
    c2: int, s2: int, k2: int, i2: int, p2: int)
    requires c1 <= c2 && i1 <= i2 && p1 <= p2 && s1 >= s2 && k1 >= k2
    ensures ComputeTrustScore(c1, s1, k1, i1, p1).score <= ComputeTrustScore(c2, s2, k2, i2, p2).score
  {
    InteractionBonusMonotone(i1, i2);
  }

  lemma InteractionBonusMonotone(i1: int, i2: int)
    requires i1 <= i2
    ensures InteractionBonus(i1) <= InteractionBonus(i2)
  {
  }

  /** The documented corner cases: an empty ledger scores 300 ("Fair"), and
      34 critical requests alone drive the score to 0 ("Critical"). */
  lemma ScoreBoundaries()
    ensures ComputeTrustScore(0, 0, 0, 0, 0) == TrustScoreComputation(300, "Fair", TrustFactors(0, 0, 0, 0, 0))
    ensures ComputeTrustScore(0, 0, 34, 0, 0).score == 0
    ensures ComputeTrustScore(0, 0, 34, 0, 0).status == "Critical"
  {
  }

  /** The row registration stores, 300 with "Healthy", is not one the
      formula's thresholds would produce: they classify 300 as "Fair". */
  lemma InitialRowDisagreesWithThresholds()
    ensures Classify(DefaultScore) == "Fair" != DefaultScoreStatus
  {
  }

  // ---------------------------------------------------------------- aggregates

  /** `WHERE user_id = $1 AND status = $2` */
  function OwnedWithStatus(uid: Uuid, status: string): Request -> bool {
    (x: Request) => x.userId == uid && x.status == status
  }

  /** `SELECT COUNT(*) FROM requests WHERE user_id = $1 AND status = $2` */
  function CountWithStatus(rs: seq<Request>, uid: Uuid, status: string): (c: nat)
    ensures c <= |rs|
    ensures c == 0 <==> forall x :: x in rs ==> !(x.userId == uid && x.status == status)
  {
    var owned := Filter(rs, OwnedWithStatus(uid, status));
    assert owned != [] ==> owned[0] in owned;
    |owned|
  }

  /** A new request row adds one to exactly the count of its owner and status. */
  lemma CountWithStatusAppend(rs: seq<Request>, x: Request, uid: Uuid, status: string)
    ensures CountWithStatus(rs + [x], uid, status)
         == CountWithStatus(rs, uid, status) + (if x.userId == uid && x.status == status then 1 else 0)
  {
    FilterAppend(rs, x, OwnedWithStatus(uid, status));
  }

  /** A request has one status, so the three counts together never exceed
      the number of rows. */
  lemma {:induction false} StatusCountsWithinRows(rs: seq<Request>, uid: Uuid)
    ensures CountWithStatus(rs, uid, "completed") + CountWithStatus(rs, uid, "stalled")
          + CountWithStatus(rs, uid, "critical") <= |rs|
    decreases |rs|
  {
    if |rs| > 0 {
      var init := rs[..|rs| - 1];
      var last := rs[|rs| - 1];
      assert rs == init + [last];
      StatusCountsWithinRows(init, uid);
      CountWithStatusAppend(init, last, uid, "completed");
      CountWithStatusAppend(init, last, uid, "stalled");
      CountWithStatusAppend(init, last, uid, "critical");
    }
  }

  /** `WHERE user_id = $1` on `network_peers` */
  function OwnedPeers(ps: seq<NetworkPeer>, uid: Uuid): (r: seq<NetworkPeer>)
    ensures forall p :: p in r <==> p in ps && p.userId == uid
  {
    Filter(ps, (p: NetworkPeer) => p.userId == uid)
  }

  /** `COALESCE(SUM(interactions), 0)`: zero over no rows. */
  function SumInteractions(ps: seq<NetworkPeer>): (r: int)
    ensures ps == [] ==> r == 0
    ensures (forall i :: 0 <= i < |ps| ==> ps[i].interactions >= 0) ==> r >= 0
  {
    if |ps| == 0 then 0 else SumInteractions(ps[..|ps| - 1]) + ps[|ps| - 1].interactions
  }

  /** The sum over two row sets is the sum of the sums. */
  lemma {:induction false} SumInteractionsConcat(xs: seq<NetworkPeer>, ys: seq<NetworkPeer>)
    ensures SumInteractions(xs + ys) == SumInteractions(xs) + SumInteractions(ys)
    decreases |ys|
  {
    if |ys| > 0 {
      var init := ys[..|ys| - 1];
      assert (xs + ys)[..|xs + ys| - 1] == xs + init;
      SumInteractionsConcat(xs, init);
    } else {
      assert xs + ys == xs;
    }
  }

  /** The sum does not depend on the order the rows come back in: any
      rearrangement of the same rows has the same sum. */
  lemma {:induction false} SumInteractionsPermutation(xs: seq<NetworkPeer>, ys: seq<NetworkPeer>)
    requires multiset(xs) == multiset(ys)
    ensures SumInteractions(xs) == SumInteractions(ys)
    decreases |xs|
  {
    if |xs| == 0 {
      assert |ys| == |multiset(ys)| == 0;
    } else {
      var n := |xs| - 1;
      var x := xs[n];
      assert xs == xs[..n] + [x];
      assert x in multiset(ys);
      var k :| 0 <= k < |ys| && ys[k] == x;
      var front, back := ys[..k], ys[k + 1..];
      assert ys == front + [x] + back;
      MultisetRemove(xs[..n], front, back, x);
      SumInteractionsPermutation(xs[..n], front + back);
      assert [x][..0] == [];
      SumInteractionsConcat(front, [x]);
      SumInteractionsConcat(front + [x], back);
      SumInteractionsConcat(front, back);
    }
  }

  /** The five inputs `recalculate_trust_score` reads for `uid`: counts of
      the user's rows, never more than the tables hold. */
  function Gather(st: State, uid: Uuid): (f: TrustFactors)
    ensures 0 <= f.completedRequests && 0 <= f.stalledRequests && 0 <= f.criticalRequests
    ensures f.completedRequests + f.stalledRequests + f.criticalRequests <= |st.requests|
    ensures 0 <= f.peerCount <= |st.networkPeers|
    ensures f.peerCount == 0 ==> f.totalInteractions == 0
    ensures f.peerCount == 0 <==> forall p :: p in st.networkPeers ==> p.userId != uid
  {
    StatusCountsWithinRows(st.requests, uid);
    var owned := OwnedPeers(st.networkPeers, uid);
    assert owned != [] ==> owned[0] in owned;
    TrustFactors(
      CountWithStatus(st.requests, uid, "completed"),
      CountWithStatus(st.requests, uid, "stalled"),
      CountWithStatus(st.requests, uid, "critical"),
      SumInteractions(owned),
      |owned|)
  }

  function ComputeFrom(f: TrustFactors): (r: TrustScoreComputation)
    ensures r.factors == f
  {
    ComputeTrustScore(f.completedRequests, f.stalledRequests, f.criticalRequests, f.totalInteractions, f.peerCount)
  }

  /** A stored row whose status is the one its score classifies to. */
  predicate Consistent(row: TrustScore) {
    MinScore <= row.score <= MaxScore && row.status == Classify(row.score)
  }

  /** `recalculate_trust_score` */
  function Recalculate(st: State, header: Option<string>, now: Time): (r: Handled<TrustScoreComputation>)
    ensures r.response.WellFormed()
    ensures Authenticate(st, header).None? ==> r == Refuse(st, Unauthorized401, NotAuthenticated)
    ensures Authenticate(st, header).Some? ==>
      var uid := Authenticate(st, header).value;
      && r.response.status == Ok200
      && var c := r.response.body.data.value;
      && c.factors == Gather(st, uid)
      && c == ComputeFrom(c.factors)
      && r.state.(trustScores := st.trustScores) == st
      && r.state.trustScores.Keys == st.trustScores.Keys
      && (forall u :: u in st.trustScores && u != uid ==> r.state.trustScores[u] == st.trustScores[u])
      && (uid in st.trustScores ==>
            var row := r.state.trustScores[uid];
            && row == st.trustScores[uid].(score := c.score, status := c.status, updatedAt := now)
            && Consistent(row))
  {
    match Authenticate(st, header)
    case None => Refuse(st, Unauthorized401, NotAuthenticated)
    case Some(uid) =>
      var c := ComputeFrom(Gather(st, uid));
      // `UPDATE ... WHERE user_id = $3` touches no row when the user has none
      var scores :=
        if uid in st.trustScores
        then st.trustScores[uid := st.trustScores[uid].(score := c.score, status := c.status, updatedAt := now)]
        else st.trustScores;
      Handled(Success(c), st.(trustScores := scores))
  }

  /** `get_trust_score`: the stored row, not a recomputation. */
  function GetTrustScore(st: State, header: Option<string>): (r: Handled<TrustScore>)
    ensures r.state == st && r.response.WellFormed()
    ensures Authenticate(st, header).None? ==> r == Refuse(st, Unauthorized401, NotAuthenticated)
    ensures Authenticate(st, header).Some? ==>
      var uid := Authenticate(st, header).value;
      && (uid in st.trustScores ==> r.response == Success(st.trustScores[uid]))
      && (uid !in st.trustScores ==> r == Refuse(st, NotFound404, NoTrustScore))
  {
    match Authenticate(st, header)
    case None => Refuse(st, Unauthorized401, NotAuthenticated)
    case Some(uid) =>
      if uid in st.trustScores then Handled(Success(st.trustScores[uid]), st)
      else Refuse(st, NotFound404, NoTrustScore)
  }

  /** `ORDER BY interactions DESC` */
  predicate MoreInteractions(a: NetworkPeer, b: NetworkPeer) {
    a.interactions >= b.interactions
  }

  /** `list_network_peers` */
  function ListNetworkPeers(st: State, header: Option<string>): (r: Handled<seq<NetworkPeer>>)
    ensures r.state == st && r.response.WellFormed()
    ensures Authenticate(st, header).None? ==> r == Refuse(st, Unauthorized401, NotAuthenticated)
    ensures Authenticate(st, header).Some? ==>
      var uid := Authenticate(st, header).value;
      && r.response.status == Ok200
      && var ps := r.response.body.data.value;
      && (forall p :: multiset(ps)[p] == if p.userId == uid then multiset(st.networkPeers)[p] else 0)
      && (forall i, j :: 0 <= i < j < |ps| ==> ps[i].interactions >= ps[j].interactions)
  {
    match Authenticate(st, header)
    case None => Refuse(st, Unauthorized401, NotAuthenticated)
    case Some(uid) =>
      FilterMultiset(st.networkPeers, (p: NetworkPeer) => p.userId == uid);
      assert TotalPreorder(MoreInteractions);
      Handled(Success(Sort(OwnedPeers(st.networkPeers, uid), MoreInteractions)), st)
  }
}

=== FILE: workflows.dfy ===
/** Properties that span several handlers: sessions outliving later logins,
    registration followed by login, create/update followed by read, and how
    ledger changes move the recalculated score. */
module Workflows {
  import opened Prelude
  import opened Seqs
  import opened Text
  import opened Models
  import opened Store
  import opened Auth
  import opened Requests
  import opened Trust

  // ---------------------------------------------------------------- sessions

  /** Registration mints a session for the new user and revokes none. */
  lemma RegisterMintsSession(
    st: State, body: RegisterRequest, passwordHash: string,
    userId: Uuid, scoreId: Uuid, draws: seq<nat>, now: Time, header: Option<string>)
    requires userId !in UserIds(st.users)
    requires IsTokenEntropy(draws) && GenerateToken(draws) !in st.sessions
    ensures var r := Register(st, body, passwordHash, userId, scoreId, draws, now);
            && (Authenticate(st, header).Some? ==> Authenticate(r.state, header) == Authenticate(st, header))
            && (r.response.status == Ok200 ==>
                  Authenticate(r.state, BearerHeader(r.response.body.data.value.token)) == Some(userId))
  {
    var r := Register(st, body, passwordHash, userId, scoreId, draws, now);
    AuthenticateMinted(r.state, draws);
  }

  /** Login mints a session for the user and revokes none. */
  lemma LoginMintsSession(
    st: State, body: LoginRequest, verify: (string, string) -> bool, draws: seq<nat>, header: Option<string>)
    requires IsTokenEntropy(draws) && GenerateToken(draws) !in st.sessions
    ensures var r := Login(st, body, verify, draws);
            && (Authenticate(st, header).Some? ==> Authenticate(r.state, header) == Authenticate(st, header))
            && (r.response.status == Ok200 ==>
                  Authenticate(r.state, BearerHeader(r.response.body.data.value.token))
                    == Some(r.response.body.data.value.user.id))
  {
    var r := Login(st, body, verify, draws);
    AuthenticateMinted(r.state, draws);
  }

  /** Whoever registers can log in with the same e-mail and password, as
      long as the password verifies against the hash that was stored. */
  lemma RegisterThenLogin(
    st: State, body: RegisterRequest, passwordHash: string,
    userId: Uuid, scoreId: Uuid, draws: seq<nat>, now: Time,
    verify: (string, string) -> bool, draws2: seq<nat>)
    requires userId !in UserIds(st.users)
    requires IsTokenEntropy(draws) && GenerateToken(draws) !in st.sessions
    requires RegistrationAccepted(st, body)
    requires verify(body.password, passwordHash)
    requires IsTokenEntropy(draws2)
    requires GenerateToken(draws2) !in Register(st, body, passwordHash, userId, scoreId, draws, now).state.sessions
    ensures var reg := Register(st, body, passwordHash, userId, scoreId, draws, now);
            var log := Login(reg.state, LoginRequest(body.email, body.password), verify, draws2);
            && log.response.status == Ok200
            && log.response.body.data.value.user == reg.response.body.data.value.user
  {
    var reg := Register(st, body, passwordHash, userId, scoreId, draws, now);
    var user := User(userId, body.username, body.email, passwordHash, now);
    assert reg.state.users == st.users + [user];
    var found := UserByEmail(reg.state.users, body.email);
    assert found == Some(user);
  }

  /** A second registration with an e-mail already in use is refused and
      changes nothing, so the first account's session keeps resolving. */
  lemma RegisterTwiceConflicts(
    st: State, first: RegisterRequest, second: RegisterRequest, passwordHash: string,
    userId: Uuid, scoreId: Uuid, draws: seq<nat>, now: Time,
    hash2: string, userId2: Uuid, scoreId2: Uuid, draws2: seq<nat>)
    requires userId !in UserIds(st.users)
    requires IsTokenEntropy(draws) && GenerateToken(draws) !in st.sessions
    requires RegistrationAccepted(st, first)
    requires second.email == first.email
    requires Utf8Len(second.username) >= MinUsernameBytes && Utf8Len(second.password) >= MinPasswordBytes
    requires var s1 := Register(st, first, passwordHash, userId, scoreId, draws, now).state;
             userId2 !in UserIds(s1.users) && IsTokenEntropy(draws2) && GenerateToken(draws2) !in s1.sessions
    ensures var r1 := Register(st, first, passwordHash, userId, scoreId, draws, now);
            var r2 := Register(r1.state, second, hash2, userId2, scoreId2, draws2, now);
            && r2 == Refuse(r1.state, Conflict409, EmailAlreadyRegistered)
            && Authenticate(r2.state, BearerHeader(GenerateToken(draws))) == Some(userId)
  {
    var r1 := Register(st, first, passwordHash, userId, scoreId, draws, now);
    var user := User(userId, first.username, first.email, passwordHash, now);
    assert user in r1.state.users;
    AuthenticateMinted(r1.state, draws);
  }

  // ---------------------------------------------------------------- ledger

  /** A created request reads back, by its id, exactly as creation returned it. */
  lemma CreateThenGet(
    st: State, header: Option<string>, body: CreateRequestBody, rid: Uuid, now: Time)
    requires forall i :: 0 <= i < |st.requestPeers| ==> st.requestPeers[i].requestId in RequestIds(st.requests)
    requires rid !in RequestIds(st.requests)
    requires Authenticate(st, header).Some? && !AllWhitespace(body.title)
    ensures var c := CreateRequest(st, header, body, rid, {}, now);
            GetRequest(c.state, header, rid).response == c.response
  {
    var c := CreateRequest(st, header, body, rid, {}, now);
    var uid := Authenticate(st, header).value;
    var d := c.response.body.data.value;
    assert c.state.sessions == st.sessions;
    assert FindOwned(c.state.requests, uid, rid) == Some(d.row) by {
      var found := FindOwned(c.state.requests, uid, rid);
      assert d.row in c.state.requests;
      assert forall x :: x in st.requests ==> x.id != rid;
    }
    assert forall i :: 0 <= i < |st.requestPeers| ==> st.requestPeers[i].requestId != rid by {
      forall i | 0 <= i < |st.requestPeers| ensures st.requestPeers[i].requestId != rid {
        var x :| x in st.requests && x.id == st.requestPeers[i].requestId;
      }
    }
    PeerNamesAfterCreate(st.requestPeers, rid, d.peers);
  }

  /** When some peer inserts fail, reading the request back still gives the
      created row, but only the names whose insert succeeded, in order. */
  lemma CreateThenGetSurvivors(
    st: State, header: Option<string>, body: CreateRequestBody, rid: Uuid, failed: set<nat>, now: Time)
    requires forall i :: 0 <= i < |st.requestPeers| ==> st.requestPeers[i].requestId in RequestIds(st.requests)
    requires rid !in RequestIds(st.requests)
    requires Authenticate(st, header).Some? && !AllWhitespace(body.title)
    ensures var c := CreateRequest(st, header, body, rid, failed, now);
            var d := c.response.body.data.value;
            var g := GetRequest(c.state, header, rid);
            && g.response.status == Ok200
            && g.response.body.data.value.row == d.row
            && g.response.body.data.value.peers == NameColumn(PeerRows(rid, d.peers, failed))
  {
    var c := CreateRequest(st, header, body, rid, failed, now);
    var uid := Authenticate(st, header).value;
    var d := c.response.body.data.value;
    assert c.state.sessions == st.sessions;
    assert FindOwned(c.state.requests, uid, rid) == Some(d.row) by {
      assert d.row in c.state.requests;
      assert forall x :: x in st.requests ==> x.id != rid;
    }
    assert forall i :: 0 <= i < |st.requestPeers| ==> st.requestPeers[i].requestId != rid by {
      forall i | 0 <= i < |st.requestPeers| ensures st.requestPeers[i].requestId != rid {
        var x :| x in st.requests && x.id == st.requestPeers[i].requestId;
      }
    }
    PeerNamesOfFreshRequest(st.requestPeers, PeerRows(rid, d.peers, failed), rid);
  }

  /** After a successful status update, reading the request shows the new status. */
  lemma UpdateThenGet(st: State, header: Option<string>, id: Uuid, status: string, now: Time)
    requires UpdateRequestStatus(st, header, id, status, now).response.status == Ok200
    ensures var u := UpdateRequestStatus(st, header, id, status, now);
            var g := GetRequest(u.state, header, id);
            && g.response.status == Ok200
            && g.response.body.data.value.row.status == status
            && g.response.body.data.value.row.updatedAt == now
  {
    var u := UpdateRequestStatus(st, header, id, status, now);
    var uid := Authenticate(st, header).value;
    assert u.state.sessions == st.sessions;
    var x :| x in st.requests && Matches(x, uid, id);
    var i :| 0 <= i < |st.requests| && st.requests[i] == x;
    assert u.state.requests[i] in u.state.requests;
    var g := GetRequest(u.state, header, id);
    var y := g.response.body.data.value.row;
    var j :| 0 <= j < |u.state.requests| && u.state.requests[j] == y;
    assert Matches(st.requests[j], uid, id);
  }

  // ---------------------------------------------------------------- scoring

  /** Recalculating and then reading the score returns what was computed. */
  lemma RecalculateThenGet(st: State, header: Option<string>, now: Time)
    requires Authenticate(st, header).Some? && Authenticate(st, header).value in st.trustScores
    ensures var c := Recalculate(st, header, now);
            var g := GetTrustScore(c.state, header);
            && g.response.status == Ok200
            && g.response.body.data.value.score == c.response.body.data.value.score
            && g.response.body.data.value.status == c.response.body.data.value.status
            && Consistent(g.response.body.data.value)
  {
    var c := Recalculate(st, header, now);
    assert c.state.sessions == st.sessions;
  }

  /** Recalculation only reads what it does not write, so a second run
      computes the same result. */
  lemma RecalculateTwiceAgrees(st: State, header: Option<string>, now: Time, later: Time)
    ensures var once := Recalculate(st, header, now);
            Recalculate(once.state, header, later).response == once.response
  {
    var once := Recalculate(st, header, now);
    assert once.state.sessions == st.sessions;
    assert once.state.requests == st.requests && once.state.networkPeers == st.networkPeers;
  }

  /** A new request starts "fair", so creating one leaves the recalculated score unchanged. */
  lemma CreateKeepsScore(
    st: State, header: Option<string>, body: CreateRequestBody, rid: Uuid, failed: set<nat>, now: Time, later: Time)
    requires rid !in RequestIds(st.requests)
    ensures var c := CreateRequest(st, header, body, rid, failed, now);
            Recalculate(c.state, header, later).response == Recalculate(st, header, later).response
  {
    var c := CreateRequest(st, header, body, rid, failed, now);
    assert c.state.sessions == st.sessions;
    if c.response.status == Ok200 {
      var uid := Authenticate(st, header).value;
      var row := c.response.body.data.value.row;
      forall s | s in {"completed", "stalled", "critical"}
        ensures CountWithStatus(c.state.requests, uid, s) == CountWithStatus(st.requests, uid, s)
      {
        FilterAppend(st.requests, row, OwnedWithStatus(uid, s));
      }
      assert Gather(c.state, uid) == Gather(st, uid);
    }
  }

  /** Marking one of one's requests "completed" never lowers the score the
      next recalculation computes. */
  lemma CompletingNeverLowersScore(st: State, header: Option<string>, id: Uuid, now: Time, later: Time)
    requires forall i, j :: 0 <= i < j < |st.requests| ==> st.requests[i].id != st.requests[j].id
    requires UpdateRequestStatus(st, header, id, "completed", now).response.status == Ok200
    ensures var u := UpdateRequestStatus(st, header, id, "completed", now);
            Recalculate(st, header, later).response.body.data.value.score
              <= Recalculate(u.state, header, later).response.body.data.value.score
  {
    var u := UpdateRequestStatus(st, header, id, "completed", now);
    var uid := Authenticate(st, header).value;
    assert u.state.sessions == st.sessions;
    var x :| x in st.requests && Matches(x, uid, id);
    var j :| 0 <= j < |st.requests| && st.requests[j] == x;
    forall i | 0 <= i < |st.requests| && i != j ensures u.state.requests[i] == st.requests[i] {
      assert !Matches(st.requests[i], uid, id);
    }
    var before, after := Gather(st, uid), Gather(u.state, uid);
    CompletingShiftsCounts(st.requests, u.state.requests, j, uid);
    ScoreMonotone(
      before.completedRequests, before.stalledRequests, before.criticalRequests, before.totalInteractions, before.peerCount,
      after.completedRequests, after.stalledRequests, after.criticalRequests, after.totalInteractions, after.peerCount);
  }

  /** Turning the caller's request at `j` into a completed one adds at most
      one completed request and removes at most one stalled or critical one. */
  lemma CompletingShiftsCounts(rs: seq<Request>, rs': seq<Request>, j: nat, uid: Uuid)
    requires |rs| == |rs'| && j < |rs|
    requires forall i :: 0 <= i < |rs| && i != j ==> rs'[i] == rs[i]
    requires rs[j].userId == uid && rs'[j] == rs[j].(status := "completed", updatedAt := rs'[j].updatedAt)
    ensures CountWithStatus(rs', uid, "completed") >= CountWithStatus(rs, uid, "completed")
    ensures CountWithStatus(rs', uid, "stalled") <= CountWithStatus(rs, uid, "stalled")
    ensures CountWithStatus(rs', uid, "critical") <= CountWithStatus(rs, uid, "critical")
  {
    FilterCountPointUpdate(rs, rs', j, OwnedWithStatus(uid, "completed"));
    FilterCountPointUpdate(rs, rs', j, OwnedWithStatus(uid, "stalled"));
    FilterCountPointUpdate(rs, rs', j, OwnedWithStatus(uid, "critical"));
  }
}
